=== FILE: README.md ===
# Document metadata generator: extraction, chunking and summarisation core

The system is a Streamlit page. It takes an uploaded PDF, DOCX or TXT file,
extracts its text and embedded images, runs OCR on the images, summarises
the text through a language model and shows each image whose stripped OCR
text is not blank beside the summary of that text. This project models the deterministic core of that
pipeline in Dafny and proves properties about it:

- **Text** (`text.dfy`) models the Python string operations the code relies
  on: `str.isspace`, `strip()`, `split()`, `sep.join`, `lower()` and
  universal-newline translation.
- **Documents** (`documents.dfy`) holds what both extractors share:
  - the uploaded file;
  - the answers of the parsing, imaging and OCR libraries, as function-typed
    fields of `Libraries`, where `None` stands for a raised exception;
  - routing on the lower-cased file suffix;
  - the text each format handler builds;
  - in-order decoding of image blobs.
- **InlineExtractor** (`inline_extractor.dfy`) models `model.py`'s
  `extract_text_and_inline_images`. It returns the text plus the images
  embedded in the document, each converted to RGB and given its own OCR
  text.
- **PageExtractor** (`page_extractor.dfy`) models `tempapp.py`'s
  `extract_text_and_images`. PDF pages are rendered to images whose OCR
  texts are space-joined. DOCX images keep their colour model and their OCR
  texts are newline-terminated.
- **Chunking** (`chunking.dfy`) models `chunk_text_by_tokens`. Words are
  gathered greedily until a counter of word lengths plus one reaches 2800.
- **Summaries** (`summaries.dfy`) models `summarize_with_groq`,
  `summarize_pdf_text` and `summarize_ocr_text`. The language model is a
  function from text to reply.
- **ImageSummaries** (`image_summaries.dfy`) models the page's image
  section. It is a loop over the images with a dictionary that caches one
  summary per distinct stripped OCR text.

Each loop of the source is a method with loop invariants, proved equal to a
specification function. The lemmas then state what that function means:

- the chunks keep the words;
- the chunking is greedy and unique;
- a decode failure aborts extraction;
- when OCR does not raise, the two extractors agree on DOCX images.
  Whenever both succeed, their text agrees too, but only because both are
  built from one shared definition, as the two sources' text branches are
  identical;
- every shown OCR text is summarised exactly once.

In two places the model follows the code where a reader might expect
otherwise:

- An image that cannot be decoded raises out of the extractor. It is not
  skipped, so extraction fails with `ImageDecodeFailed`.
- A `.txt` file is read in text mode, so `"\r\n"` and a lone `"\r"` become
  `"\n"`.

## Model

| member | source | states |
|---|---|---|
| Text.Strip | model.py:75 | the result has no whitespace at either end, and it is empty exactly when the input is all whitespace (Python `isspace` set) |
| Text.StripRemovesOnlySpaces | model.py:75 | `strip()` keeps the input's characters in place after the leading whitespace, and only whitespace follows what it keeps |
| Text.StripStripped | model.py:75 | stripping an already stripped string changes nothing |
| Text.Split | model.py:82 | every element of `split()` is a non-empty word without whitespace |
| Text.SplitWordThen | model.py:82 | a word followed by nothing or by whitespace is split off whole as the first word: `split()` takes maximal runs |
| Text.SplitSpaceThen | model.py:82 | leading whitespace of any length yields no word and leaves the words after it unchanged |
| Text.SplitAppendAtSpace | model.py:82 | no word straddles whitespace: the words of `a + b`, when `b` starts with whitespace, are those of `a` then those of `b` |
| Text.SplitEmptyIffBlank | model.py:82 | `split()` yields no word exactly when the text is all whitespace |
| Text.SplitJoin | model.py:90 | round trip: splitting the space join of a list of words gives back that list |
| Text.JoinSnoc | model.py:53 | `sep.join` of one more part is the previous join, the separator and that part |
| Text.SplitOfJoin | model.py:37 | joining with whitespace neither merges nor splits words: the words of the join are the words of the parts, in order |
| Text.Lower | model.py:24 | the lower-cased suffix has the same length, with each ASCII capital replaced by its small letter |
| Text.UniversalNewlinesNoCarriageReturn | model.py:64-65 | a text-mode read leaves no carriage return and never lengthens the text |
| Text.UniversalNewlinesLineEnds | model.py:64-65 | `"\r\n"` and a lone `"\r"` each become one `"\n"`, and every other character is kept |
| Text.UniversalNewlinesAppend | model.py:64-65 | the translation works piece by piece: it distributes over a concatenation that does not split a `"\r\n"` pair (with the line-end lemma this fixes the result for every text) |
| Text.UniversalNewlinesKeepsPlainText | model.py:64-65 | text without carriage returns is read unchanged |
| Documents.Suffix | model.py:24 | the suffix is empty or a tail of the name that starts with its only dot, is at least two characters long and is shorter than the name |
| Documents.SuffixOf | model.py:24 | `stem.ext` with a dot-free extension has suffix `.ext` |
| Documents.FormatOfExtension | model.py:24-67 | routing by extension in any letter case: `stem.ext` is a PDF, DOCX or TXT document exactly when `ext` lower-cases to `pdf`, `docx` or `txt`; otherwise it is unsupported with the lower-cased suffix `.ext` |
| Documents.FormatOfNoExtension | model.py:24-67 | a name without a dot after its first character has the empty suffix and is unsupported |
| Documents.PdfTextWords | model.py:35-39 | the words of the PDF text layer are the words of its pages in page order; a page without text adds none; a reader failure gives "" |
| Documents.DocxTextWords | model.py:52-53 | an opened DOCX always yields a text, whose words are the words of its paragraphs in order |
| Documents.DecodeAllMeaning | model.py:43-48 | decoding the blobs succeeds exactly when every blob decodes, and then yields one image per blob, index by index |
| Documents.DecodeStep | model.py:43-48 | one decoding step: a failing blob fails the whole pass, and a decoded one joins the collected images |
| Documents.ImageBlobsAppend | model.py:54-58 | the relationship table can be scanned piecewise |
| Documents.NonImageRelIgnored | model.py:57 | a relationship that is not an image contributes nothing, wherever it stands |
| Documents.ImageRelContributes | model.py:57-58 | an image relationship contributes exactly its blob, at its position |
| Documents.OcrEachSnoc | model.py:48-50 | one more image appends its own OCR text after those of the earlier images |
| InlineExtractor.Extraction | model.py:74-78 | a successful extraction has stripped text and exactly one OCR text per image, each the OCR of the image at its index |
| InlineExtractor.CollectPageImages | model.py:43-50 | the loop over one page's blobs appends their RGB decodings with matching OCR texts and hands the rest of the document on unchanged, or reports the first undecodable blob, which fails the whole pass |
| InlineExtractor.CollectPdfImages | model.py:40-50 | the PDF image loop (pages, then blobs) yields exactly the in-order RGB decoding of all embedded blobs, with their OCR texts, or fails on the first undecodable blob |
| InlineExtractor.CollectDocxImages | model.py:54-62 | the DOCX image loop yields exactly the RGB decoding of the image relationships in table order, with their OCR texts, or fails on the first undecodable blob |
| InlineExtractor.ExtractTextAndInlineImages | model.py:23-78 | the extractor returns exactly the specified extraction or failure for every file |
| InlineExtractor.PdfImagesMeaning | model.py:40-50 | a PDF's images are its embedded blobs, page after page, each decoded and converted to RGB; extraction fails exactly when one blob does not decode |
| InlineExtractor.DocxImagesMeaning | model.py:51-62 | a DOCX's images are the blobs of its image relationships in table order, each decoded and converted to RGB; extraction fails exactly when one does not decode |
| InlineExtractor.UnsupportedSentinel | model.py:66-67 | an unsupported suffix, in any letter case, gives the stripped sentinel text and no images |
| InlineExtractor.PdfTextFailureKeepsImages | model.py:35-50 | a PDF whose text layer raises still has all its images extracted, and only the text is empty |
| PageExtractor.Extraction | tempapp.py:69-73 | a successful extraction has stripped text and stripped OCR text |
| PageExtractor.CollectDocxImages | tempapp.py:51-58 | the DOCX loop yields the in-order decoding, without colour conversion, of the image relationships, and the OCR string is each OCR text followed by a newline |
| PageExtractor.ExtractTextAndImages | tempapp.py:27-73 | the extractor returns exactly the specified extraction or failure for every file |
| PageExtractor.OcrLinesIsJoin | tempapp.py:58 | the accumulated DOCX OCR string is the newline join of the OCR texts plus one final newline, for any non-empty image list |
| PageExtractor.DocxImagesMeaning | tempapp.py:48-57 | a DOCX's images are the blobs of its image relationships in table order, decoded without colour conversion; extraction fails exactly when one does not decode |
| PageExtractor.UnsupportedSentinel | tempapp.py:63-64 | an unsupported suffix gives the stripped sentinel text, no OCR text and no images |
| PageExtractor.PdfUsesRenderedPages | tempapp.py:38-46 | a PDF's images are its rendered pages and its OCR text is the stripped space join of their OCR texts, independent of the text layer |
| PageExtractor.TxtHasNoImages | tempapp.py:60-62 | a text file gives its stripped, newline-translated content with no OCR text and no images |
| PageExtractor.DocxOcrText | tempapp.py:48-58 | for a DOCX, the OCR text is the stripped newline join of the per-image OCR texts ("" when there is no image) |
| PageExtractor.VariantsAgreeOnText | tempapp.py:38-64 | both extractors build the same text whenever both succeed; this holds by the shared text definition, because the two sources' text branches are identical |
| PageExtractor.VariantsAgreeOnDocxImages | tempapp.py:48-58 | on a DOCX, with OCR total as modelled, both extractors succeed together and find the same images, except for the RGB conversion |
| Chunking.ChunkByTokens | model.py:80-95 | the imperative chunker returns exactly the chunks of the greedy grouping of the words |
| Chunking.GroupsFromConcat | model.py:86-94 | the groups hold exactly the words still to come, after the open chunk, in order |
| Chunking.GroupsFromGreedy | model.py:86-94 | from a consistent counter the grouping is greedy: no empty group, every group but the last reaches 2800, and none would reach it without its last word |
| Chunking.ChunksKeepWords | model.py:80-95 | the words of the chunks, in order, are the words of the text |
| Chunking.ChunksAreGreedy | model.py:86-94 | every chunk holds a word and the chunks have the greedy shape |
| Chunking.NoChunksIffBlank | model.py:80-95 | a text yields no chunk exactly when it is all whitespace |
| Chunking.GreedyIsUnique | model.py:80-95 | a greedy grouping is determined by its words, so the chunks do not depend on `max_tokens` |
| Summaries.SummarizeWithModel | model.py:97-110 | the model's reply is returned stripped |
| Summaries.SummarizePdfText | model.py:112-121 | one model call per chunk, in order, then one reduction call on the newline join exactly when there is more than one chunk or more than 700 words; the result is stripped, and blank text makes no call and gives "" |
| Summaries.OcrSummaryDependsOnlyOnReply | model.py:148-174 | the model is consulted on the OCR text itself and on nothing else, and not at all for blank text: models that agree on that one reply give the same summary |
| ImageSummaries.CleanOcrTextAt | model.py:227-228 | the text of image `idx` is its OCR entry stripped, or "" when the OCR list is shorter, and has no surrounding whitespace |
| ImageSummaries.ShownIndicesMeaning | model.py:226-230 | the shown images are exactly those whose stripped OCR text is not blank, each once, in increasing order |
| ImageSummaries.PanelsAreShownImages | model.py:226-236 | there is one panel per shown image, in order, with that image, its stripped OCR text and the summary of that text |
| ImageSummaries.CachedSummary | model.py:231-236 | a cache lookup returns the summary of the key and keeps the cache faithful; a call is made exactly when the key is new |
| ImageSummaries.ShowImage | model.py:230-236 | a non-blank text adds one panel with its summary, blank text adds none, and the cache stays faithful with the calls being the first occurrences of the shown texts |
| ImageSummaries.RenderImage | model.py:226-236 | one iteration moves the loop state from the first `idx` images to the first `idx + 1` |
| ImageSummaries.RenderImageSummaries | model.py:222-236 | the loop shows exactly the specified panels, and the summariser is called once per distinct shown text, in order of first appearance |
| ImageSummaries.FirstOccurrencesMeaning | model.py:231-234 | keeping first occurrences loses no text, adds none and leaves no duplicate |
| ImageSummaries.PanelSummariesAreReplies | model.py:226-236 | with `summarize_ocr_text` as the summariser, every shown text is non-blank and its summary is the model's reply to it (stripped, or the failure message); the blank-text message is never shown |
| ImageSummaries.EachTextSummarisedOnce | model.py:222-236 | a text is sent for summarisation exactly when some panel shows it, and no text is sent twice |

## Left out

- The Streamlit page is left out: upload widget, headings, spinners, columns, JSON download and `st.image`. The image section is modelled as the list of panels it shows.
- `generate_metadata` and the JSON it returns are left out, because they are language-model prompting with no logic beyond the call.
- The language model is a function parameter. The network call, API key, model name and prompt wording are not modelled, and the model is assumed deterministic for a given text.
- `summarize_with_groq` raising is not modelled, because the PDF summary path does not catch the exception.
- The temporary file is not modelled: it is written, read back through its path and removed. This includes `tempapp.py`'s unguarded `os.remove` and the `PermissionError` guard in `model.py`.
- Listing and extracting a PDF's embedded images is one all-or-nothing library answer. When a page's images cannot be listed or extracted, the model reports `PdfOpenFailed` even if a blob on an earlier page could not be decoded; the source would raise that decode error first.
- OCR is a total function. `pytesseract` raising propagates in the source and is not modelled.
- PageExtractor.VariantsAgreeOnDocxImages: "succeed together" relies on total OCR. `tempapp.py` OCRs the image as decoded, in its own file format, while `model.py` OCRs the RGB conversion. OCR can reject a format (such as a WMF/EMF picture in a Word file) that the converted image no longer has, so `tempapp.py` can raise where `model.py` succeeds.
- The PDF reader, PDF renderer, `python-docx`, image decoding and RGB conversion are uninterpreted functions. Their internals are not modelled, nor the `xref` tuple handling of `page.get_images`.
- Text.Lower: models Python's `lower()` on ASCII letters only, because full Unicode case mapping is not modelled.
- Documents.Suffix: treats the whole name as the final path component, because directory separators in uploaded names are not modelled.
- DOCX relationships whose target is external (no `target_part`) are not modelled. Each relationship is modelled with a blob.
- Configuration (`load_dotenv`, the Tesseract path) is left out, and so are `app.py` and `deploy.py`. They are not part of this model.
- Integer widths do not matter here: all counters are Python integers, modelled as unbounded.

=== FILE: chunking.dfy ===
/**
 * The word chunker of model.py: the words of a text are gathered into
 * chunks; every word adds its length plus one to a running counter, and a
 * chunk is closed as soon as the counter reaches 2800. Each chunk is the
 * space join of its words. The `max_tokens` argument is accepted and
 * ignored.
 */
module Chunking {
  import opened Text

  /** The counter value at which a chunk is closed. */
  const ChunkSize := 2800

  /** The counter a sequence of words adds up to: each word's length plus
      one. */
  function Cost(words: seq<string>): nat
  {
    if words == [] then 0 else Cost(words[..|words| - 1]) + |words[|words| - 1]| + 1
  }

  lemma {:induction false} CostAppend(a: seq<string>, b: seq<string>)
    ensures Cost(a + b) == Cost(a) + Cost(b)
    decreases |b|
  {
    if b == [] {
      assert a + b == a;
    } else {
      var n := |b|;
      assert (a + b)[..|a + b| - 1] == a + b[..n - 1];
      CostAppend(a, b[..n - 1]);
    }
  }

  function DropLast<T>(s: seq<T>): seq<T>
    requires s != []
  {
    s[..|s| - 1]
  }

  /** The shape of a greedy chunking: no group is empty, every group but
      the last reaches the threshold, and no group would reach it without
      its last word. */
  predicate Greedy(groups: seq<seq<string>>)
  {
    && (forall i :: 0 <= i < |groups| ==> groups[i] != [] && Cost(DropLast(groups[i])) < ChunkSize)
    && (forall i :: 0 <= i < |groups| - 1 ==> Cost(groups[i]) >= ChunkSize)
  }

  /** The groups of words the chunker produces when it has already gathered
      `current` into the open chunk, its counter stands at `length`, and
      `rest` is still to come. */
  function GroupsFrom(current: seq<string>, length: nat, rest: seq<string>): seq<seq<string>>
    requires length < ChunkSize
    decreases |rest|
  {
    if rest == [] then (if current == [] then [] else [current])
    else
      var next := current + [rest[0]];
      var nextLength := length + |rest[0]| + 1;
      if nextLength >= ChunkSize then [next] + GroupsFrom([], 0, rest[1..])
      else GroupsFrom(next, nextLength, rest[1..])
  }

  /** Adding one word to a group adds its length plus one to the counter. */
  lemma CostSnoc(words: seq<string>, w: string)
    ensures Cost(words + [w]) == Cost(words) + |w| + 1
  {
    assert (words + [w])[..|words|] == words;
  }

  /** Each group of words becomes its space join. */
  function JoinEach(groups: seq<seq<string>>): seq<string>
  {
    seq(|groups|, i requires 0 <= i < |groups| => Join(" ", groups[i]))
  }

  /** Closing one more group appends its join. */
  lemma JoinEachSnoc(groups: seq<seq<string>>, group: seq<string>)
    ensures JoinEach(groups + [group]) == JoinEach(groups) + [Join(" ", group)]
  {
    assert forall i :: 0 <= i < |groups| ==> (groups + [group])[i] == groups[i];
  }

  /** The chunks of a text. */
  function ChunkText(text: string): seq<string>
  {
    JoinEach(GroupsFrom([], 0, Split(text)))
  }

  /** `chunk_text_by_tokens`: one pass over the words with a running
      counter, closing the open chunk when the counter reaches 2800. */
  method ChunkByTokens(text: string, maxTokens: int) returns (chunks: seq<string>)
    ensures chunks == ChunkText(text)
  {
    var words := Split(text);
    chunks := [];
    var currentChunk: seq<string> := [];
    var currentLength: nat := 0;
    ghost var groups: seq<seq<string>> := [];
    assert words[0..] == words;
    var i := 0;
    while i < |words|
      invariant 0 <= i <= |words|
      invariant currentLength < ChunkSize
      invariant groups + GroupsFrom(currentChunk, currentLength, words[i..]) == GroupsFrom([], 0, words)
      invariant chunks == JoinEach(groups)
    {
      var word := words[i];
      assert words[i..][0] == word && words[i..][1..] == words[i + 1..];
      ghost var pending := GroupsFrom(currentChunk, currentLength, words[i..]);
      currentChunk := currentChunk + [word];
      currentLength := currentLength + |word| + 1;
      if currentLength >= ChunkSize {
        assert pending == [currentChunk] + GroupsFrom([], 0, words[i + 1..]);
        JoinEachSnoc(groups, currentChunk);
        chunks := chunks + [Join(" ", currentChunk)];
        assert groups + [currentChunk] + GroupsFrom([], 0, words[i + 1..])
          == groups + ([currentChunk] + GroupsFrom([], 0, words[i + 1..]));
        groups := groups + [currentChunk];
        currentChunk := [];
        currentLength := 0;
      } else {
        assert pending == GroupsFrom(currentChunk, currentLength, words[i + 1..]);
      }
      i := i + 1;
    }
    assert words[i..] == [];
    if currentChunk != [] {
      assert GroupsFrom(currentChunk, currentLength, []) == [currentChunk];
      JoinEachSnoc(groups, currentChunk);
      chunks := chunks + [Join(" ", currentChunk)];
      groups := groups + [currentChunk];
    } else {
      assert groups + [] == groups;
    }
  }

  /** The groups hold exactly the words, in order. */
  lemma {:induction false} GroupsFromConcat(current: seq<string>, length: nat, rest: seq<string>)
    requires length < ChunkSize
    ensures Concat(GroupsFrom(current, length, rest)) == current + rest
    decreases |rest|
  {
    if rest == [] {
      assert current + rest == current;
      if current != [] {
        assert Concat([current]) == current + Concat([current][1..]);
      }
    } else {
      var next := current + [rest[0]];
      var nextLength := length + |rest[0]| + 1;
      assert next + rest[1..] == current + rest;
      if nextLength >= ChunkSize {
        GroupsFromConcat([], 0, rest[1..]);
        assert ([next] + GroupsFrom([], 0, rest[1..]))[1..] == GroupsFrom([], 0, rest[1..]);
        assert [] + rest[1..] == rest[1..];
      } else {
        GroupsFromConcat(next, nextLength, rest[1..]);
      }
    }
  }

  /** The groups have the greedy shape, when the counter is the cost of the
      open chunk. */
  lemma {:induction false} GroupsFromGreedy(current: seq<string>, length: nat, rest: seq<string>)
    requires length == Cost(current) < ChunkSize
    ensures Greedy(GroupsFrom(current, length, rest))
    decreases |rest|
  {
    if rest != [] {
      var next := current + [rest[0]];
      var nextLength := length + |rest[0]| + 1;
      CostSnoc(current, rest[0]);
      assert DropLast(next) == current;
      if nextLength >= ChunkSize {
        GroupsFromGreedy([], 0, rest[1..]);
        var tail := GroupsFrom([], 0, rest[1..]);
        var gs := [next] + tail;
        assert GroupsFrom(current, length, rest) == gs;
        forall i | 0 <= i < |gs|
          ensures gs[i] != [] && Cost(DropLast(gs[i])) < ChunkSize
          ensures i < |gs| - 1 ==> Cost(gs[i]) >= ChunkSize
        {
          if i > 0 {
            assert gs[i] == tail[i - 1];
          }
        }
      } else {
        assert GroupsFrom(current, length, rest) == GroupsFrom(next, nextLength, rest[1..]);
        GroupsFromGreedy(next, nextLength, rest[1..]);
      }
    }
  }

  /** Every group is made of words, when the input is. */
  lemma {:induction false} GroupsFromWords(current: seq<string>, length: nat, rest: seq<string>)
    requires length < ChunkSize
    requires forall k :: 0 <= k < |current| ==> IsWord(current[k])
    requires forall k :: 0 <= k < |rest| ==> IsWord(rest[k])
    ensures forall i, k :: 0 <= i < |GroupsFrom(current, length, rest)| && 0 <= k < |GroupsFrom(current, length, rest)[i]| ==>
      IsWord(GroupsFrom(current, length, rest)[i][k])
    decreases |rest|
  {
    if rest != [] {
      var next := current + [rest[0]];
      var nextLength := length + |rest[0]| + 1;
      forall k | 0 <= k < |rest[1..]| ensures IsWord(rest[1..][k]) {
        assert rest[1..][k] == rest[k + 1];
      }
      forall k | 0 <= k < |next| ensures IsWord(next[k]) {
        if k < |current| {
          assert next[k] == current[k];
        } else {
          assert next[k] == rest[0];
        }
      }
      if nextLength >= ChunkSize {
        GroupsFromWords([], 0, rest[1..]);
        var tail := GroupsFrom([], 0, rest[1..]);
        var gs := [next] + tail;
        assert GroupsFrom(current, length, rest) == gs;
        forall i, k | 0 <= i < |gs| && 0 <= k < |gs[i]| ensures IsWord(gs[i][k]) {
          if i > 0 {
            assert gs[i] == tail[i - 1];
          }
        }
      } else {
        assert GroupsFrom(current, length, rest) == GroupsFrom(next, nextLength, rest[1..]);
        GroupsFromWords(next, nextLength, rest[1..]);
      }
    }
  }

  /** The words of a chunk are the words of its group. */
  lemma ChunkWordsAreGroups(text: string)
    ensures WordsOf(ChunkText(text)) == GroupsFrom([], 0, Split(text))
  {
    var groups := GroupsFrom([], 0, Split(text));
    GroupsFromWords([], 0, Split(text));
    forall i | 0 <= i < |groups| ensures Split(Join(" ", groups[i])) == groups[i] {
      SplitJoin(groups[i]);
    }
  }

  /** Chunking keeps the words: the words of the chunks, taken in order, are
      the words of the text. */
  lemma ChunksKeepWords(text: string)
    ensures Concat(WordsOf(ChunkText(text))) == Split(text)
  {
    ChunkWordsAreGroups(text);
    GroupsFromConcat([], 0, Split(text));
    assert [] + Split(text) == Split(text);
  }

  /** Every chunk holds at least one word, every chunk but the last reaches
      the threshold, and no chunk would reach it without its last word. */
  lemma ChunksAreGreedy(text: string)
    ensures Greedy(WordsOf(ChunkText(text)))
    ensures forall i :: 0 <= i < |ChunkText(text)| ==> !AllSpace(ChunkText(text)[i])
  {
    ChunkWordsAreGroups(text);
    GroupsFromGreedy([], 0, Split(text));
    var chunks := ChunkText(text);
    forall i | 0 <= i < |chunks| ensures !AllSpace(chunks[i]) {
      assert Split(chunks[i]) == WordsOf(chunks)[i];
      SplitEmptyIffBlank(chunks[i]);
    }
  }

  /** A text yields no chunk exactly when it is all whitespace. */
  lemma NoChunksIffBlank(text: string)
    ensures ChunkText(text) == [] <==> AllSpace(text)
  {
    SplitEmptyIffBlank(text);
    ChunkWordsAreGroups(text);
    GroupsFromConcat([], 0, Split(text));
    assert [] + Split(text) == Split(text);
    var groups := GroupsFrom([], 0, Split(text));
    if groups != [] {
      GroupsFromGreedy([], 0, Split(text));
      assert Concat(groups) == groups[0] + Concat(groups[1..]);
    }
  }

  /** A greedy grouping whose first group is shorter than another greedy
      grouping's first group cannot cover the same words. */
  lemma FirstGroupNotShorter(g1: seq<seq<string>>, g2: seq<seq<string>>)
    requires Greedy(g1) && Greedy(g2) && g1 != [] && g2 != []
    requires Concat(g1) == Concat(g2)
    ensures |g1[0]| >= |g2[0]|
  {
    var a, b := g1[0], g2[0];
    var w := Concat(g1);
    assert w == a + Concat(g1[1..]);
    assert w == b + Concat(g2[1..]);
    if |a| < |b| {
      assert a == w[..|a|] && b == w[..|b|];
      assert DropLast(b) == a + b[|a|..|b| - 1];
      CostAppend(a, b[|a|..|b| - 1]);
      assert Cost(a) < ChunkSize;
      assert false;
    }
  }

  /** A greedy grouping is determined by the words it covers: the chunking
      does not depend on anything else (in particular not on `maxTokens`). */
  lemma {:induction false} GreedyIsUnique(g1: seq<seq<string>>, g2: seq<seq<string>>)
    requires Greedy(g1) && Greedy(g2)
    requires Concat(g1) == Concat(g2)
    ensures g1 == g2
    decreases |g1|
  {
    if g1 != [] && g2 != [] {
      FirstGroupNotShorter(g1, g2);
      FirstGroupNotShorter(g2, g1);
      var w := Concat(g1);
      assert w == g1[0] + Concat(g1[1..]) && w == g2[0] + Concat(g2[1..]);
      assert g1[0] == w[..|g1[0]|] && g2[0] == w[..|g2[0]|];
      assert Concat(g1[1..]) == w[|g1[0]|..] == Concat(g2[1..]);
      forall i | 0 <= i < |g1[1..]| ensures g1[1..][i] == g1[i + 1] { }
      forall i | 0 <= i < |g2[1..]| ensures g2[1..][i] == g2[i + 1] { }
      GreedyIsUnique(g1[1..], g2[1..]);
      assert g1 == [g1[0]] + g1[1..] && g2 == [g2[0]] + g2[1..];
    }
  }
}

=== FILE: documents.dfy ===
/**
 * What both document extractors share: the uploaded file, the answers of the
 * parsing and OCR libraries (given as functions, since their internals are
 * not modelled), the failures those libraries raise, the routing on the
 * file-name suffix and the text each format handler builds.
 */
module Documents {
  import opened Text

  datatype Option<T> = None | Some(value: T)

  type Bytes = seq<bv8>

  /** The library call whose exception ends an extraction. */
  datatype Failure =
    | PdfOpenFailed        // the PDF's embedded images could not be listed or extracted
    | PdfRasterizeFailed   // the PDF pages could not be rendered to images
    | DocxOpenFailed       // the DOCX package could not be opened
    | ImageDecodeFailed    // an embedded image blob could not be decoded
    | Utf8DecodeFailed     // a .txt file is not valid UTF-8

  datatype Result<T> = Ok(value: T) | Err(failure: Failure)

  /** An uploaded file: the name the browser sent and its bytes. */
  datatype Upload = Upload(name: string, content: Bytes)

  /** One entry of a DOCX package's relationship table. */
  datatype Relationship<Blob> = Relationship(relType: string, blob: Blob)

  /** An opened DOCX package: its paragraph texts in document order and its
      relationship table in iteration order. */
  datatype DocxPackage<Blob> = DocxPackage(paragraphs: seq<string>, rels: seq<Relationship<Blob>>)

  /** The relationship type that marks an embedded image part. */
  const ImageRelType := "http://schemas.openxmlformats.org/officeDocument/2006/relationships/image"

  const UnsupportedPrefix := "Unsupported file type: "

  /**
   * The answers of the external libraries for a given input. `None` stands
   * for an exception.
   *   pdfPageTexts   the text-layer reader: one entry per page, `None` for a
   *                  page without text; `None` overall if reading failed
   *   pdfPageImages  the embedded image blobs of each page, in page order;
   *                  `None` if opening the PDF, listing a page's images or
   *                  extracting one of them failed
   *   rasterizePdf   one rendered image per page
   *   openDocx       the opened DOCX package
   *   readUtf8       the file read as UTF-8 text (before newline translation)
   *   openImage      decoding of one image blob
   *   toRgb          conversion of an image to the RGB colour model
   *   ocr            the OCR engine: image in, text out
   */
  datatype Libraries<!Blob, !Image> = Libraries(
    pdfPageTexts: Bytes -> Option<seq<Option<string>>>,
    pdfPageImages: Bytes -> Option<seq<seq<Blob>>>,
    rasterizePdf: Bytes -> Option<seq<Image>>,
    openDocx: Bytes -> Option<DocxPackage<Blob>>,
    readUtf8: Bytes -> Option<string>,
    openImage: Blob -> Option<Image>,
    toRgb: Image -> Image,
    ocr: Image -> string)

  /** Position of the last '.' in `name`, if any. */
  function LastDot(name: string): (i: Option<nat>)
    ensures i.Some? ==> i.value < |name| && name[i.value] == '.'
    ensures i.Some? ==> forall j :: i.value < j < |name| ==> name[j] != '.'
    ensures i.None? ==> forall j :: 0 <= j < |name| ==> name[j] != '.'
  {
    if name == [] then None
    else if name[|name| - 1] == '.' then Some(|name| - 1)
    else LastDot(name[..|name| - 1])
  }

  /** The suffix of a file name: from its last dot to its end, provided that
      dot is neither the first nor the last character; otherwise "". */
  function Suffix(name: string): (r: string)
    ensures r != [] ==> 2 <= |r| < |name| && r == name[|name| - |r|..]
    ensures r != [] ==> r[0] == '.' && forall j :: 0 < j < |r| ==> r[j] != '.'
  {
    match LastDot(name)
    case Some(i) => if 0 < i < |name| - 1 then name[i..] else ""
    case None => ""
  }

  /** A name made of a non-empty stem, a dot and a dot-free non-empty
      extension has exactly that dot and extension as its suffix. */
  lemma SuffixOf(stem: string, ext: string)
    requires stem != [] && ext != []
    requires forall j :: 0 <= j < |ext| ==> ext[j] != '.'
    ensures Suffix(stem + "." + ext) == "." + ext
  {
    var name := stem + "." + ext;
    var i := LastDot(name);
    assert name[|stem|] == '.';
    assert forall j :: |stem| < j < |name| ==> name[j] == ext[j - |stem| - 1];
    assert i == Some(|stem|);
    assert name[|stem|..] == "." + ext;
  }

  /** A name whose only dot, if any, is its first character has no suffix
      and so is not a supported document, whatever follows the dot. */
  lemma FormatOfNoExtension(name: string)
    requires forall j :: 0 < j < |name| ==> name[j] != '.'
    ensures FormatOf(name) == Unsupported("")
  {
    assert Lower("") == "";
  }

  /** The four routes of the extractors. */
  datatype Format = Pdf | Docx | Txt | Unsupported(suffix: string)

  /** Routing: the lower-cased suffix alone decides the format. */
  function FormatOf(name: string): Format
  {
    var suffix := Lower(Suffix(name));
    if suffix == ".pdf" then Pdf
    else if suffix == ".docx" then Docx
    else if suffix == ".txt" then Txt
    else Unsupported(suffix)
  }

  /** Routing by extension, in any letter case: `stem.ext` with a dot-free
      extension is a PDF, DOCX or TXT document exactly when `ext` lower-cases
      to `pdf`, `docx` or `txt`, and otherwise is unsupported with the
      lower-cased suffix. */
  lemma FormatOfExtension(stem: string, ext: string)
    requires stem != [] && ext != []
    requires forall j :: 0 <= j < |ext| ==> ext[j] != '.'
    ensures FormatOf(stem + "." + ext) ==
      if Lower(ext) == "pdf" then Pdf
      else if Lower(ext) == "docx" then Docx
      else if Lower(ext) == "txt" then Txt
      else Unsupported("." + Lower(ext))
  {
    SuffixOf(stem, ext);
    LowerAfterDot(ext);
    var e := Lower(ext);
    assert Lower(Suffix(stem + "." + ext)) == "." + e;
    DottedSuffixes(e);
  }

  /** Lower-casing keeps the leading dot of a suffix. */
  lemma LowerAfterDot(ext: string)
    ensures Lower("." + ext) == "." + Lower(ext)
  {
    var l, r := Lower("." + ext), "." + Lower(ext);
    assert forall i :: 0 < i < |l| ==> ("." + ext)[i] == ext[i - 1];
    assert forall i :: 0 <= i < |l| ==> l[i] == r[i];
  }

  /** The three supported suffixes are a dot followed by their extension. */
  lemma DottedSuffixes(e: string)
    ensures "." + e == ".pdf" <==> e == "pdf"
    ensures "." + e == ".docx" <==> e == "docx"
    ensures "." + e == ".txt" <==> e == "txt"
  {
    assert ("." + e)[1..] == e;
  }

  /** The four routes in terms of the lower-cased suffix, as the
      extractors compare it. */
  lemma FormatOfCases(name: string)
    ensures FormatOf(name) == Pdf <==> Lower(Suffix(name)) == ".pdf"
    ensures FormatOf(name) == Docx <==> Lower(Suffix(name)) == ".docx"
    ensures FormatOf(name) == Txt <==> Lower(Suffix(name)) == ".txt"
    ensures FormatOf(name).Unsupported? ==> FormatOf(name).suffix == Lower(Suffix(name))
  {
  }

  /** The text of one PDF page, a page without text counting as "". */
  function PageText(page: Option<string>): string
  {
    match page
    case Some(t) => t
    case None => ""
  }

  /** The text of each page, in page order. */
  function PageTexts(pages: seq<Option<string>>): seq<string>
  {
    seq(|pages|, i requires 0 <= i < |pages| => PageText(pages[i]))
  }

  /** The PDF text layer: the page texts joined by newlines, or "" when the
      reader raised. */
  function PdfText(pages: Option<seq<Option<string>>>): string
  {
    match pages
    case None => ""
    case Some(ps) => Join("\n", PageTexts(ps))
  }

  /** The words of the PDF text layer are the words of its pages, in page
      order: the newline join merges no two pages' words, a page without
      text contributes none, and a reader failure leaves no word at all. */
  lemma PdfTextWords(pages: Option<seq<Option<string>>>)
    ensures pages.None? ==> PdfText(pages) == ""
    ensures pages.Some? ==> Split(PdfText(pages)) == Concat(WordsOf(PageTexts(pages.value)))
    ensures pages.Some? ==> forall i :: 0 <= i < |pages.value| && pages.value[i].None? ==>
      WordsOf(PageTexts(pages.value))[i] == []
  {
    assert IsSpace('\n');
    if pages.Some? {
      SplitOfJoin("\n", PageTexts(pages.value));
    }
  }

  /** The words of a DOCX text are the words of its paragraphs, in
      paragraph order. */
  lemma DocxTextWords<Blob, Image>(lib: Libraries<Blob, Image>, file: Upload, pkg: DocxPackage<Blob>)
    requires FormatOf(file.name) == Docx
    requires lib.openDocx(file.content) == Some(pkg)
    ensures HandlerText(lib, file).Ok?
    ensures Split(HandlerText(lib, file).value) == Concat(WordsOf(pkg.paragraphs))
  {
    assert IsSpace('\n');
    SplitOfJoin("\n", pkg.paragraphs);
  }

  /** The text each format handler builds, before the final strip. */
  function HandlerText<Blob, Image>(lib: Libraries<Blob, Image>, file: Upload): Result<string>
  {
    match FormatOf(file.name)
    case Pdf => Ok(PdfText(lib.pdfPageTexts(file.content)))
    case Docx =>
      (match lib.openDocx(file.content)
       case None => Err(DocxOpenFailed)
       case Some(pkg) => Ok(Join("\n", pkg.paragraphs)))
    case Txt =>
      (match lib.readUtf8(file.content)
       case None => Err(Utf8DecodeFailed)
       case Some(s) => Ok(UniversalNewlines(s)))
    case Unsupported(suffix) => Ok(UnsupportedPrefix + suffix)
  }

  /** Decoding of one blob, optionally converted to RGB. */
  function Decode<Blob, Image>(lib: Libraries<Blob, Image>, blob: Blob, rgb: bool): Option<Image>
  {
    match lib.openImage(blob)
    case None => None
    case Some(image) => Some(if rgb then lib.toRgb(image) else image)
  }

  /** Decoding of a sequence of blobs in order; the first failure fails the
      whole sequence. */
  function DecodeAll<Blob, Image>(lib: Libraries<Blob, Image>, blobs: seq<Blob>, rgb: bool): Option<seq<Image>>
  {
    if blobs == [] then Some([])
    else
      match Decode(lib, blobs[0], rgb)
      case None => None
      case Some(image) =>
        match DecodeAll(lib, blobs[1..], rgb)
        case None => None
        case Some(images) => Some([image] + images)
  }

  /** Decoding a sequence succeeds exactly when every blob decodes, and then
      there is one image per blob, each the decoding of the blob at the same
      index. */
  lemma {:induction false} DecodeAllMeaning<Blob, Image>(lib: Libraries<Blob, Image>, blobs: seq<Blob>, rgb: bool)
    ensures DecodeAll(lib, blobs, rgb).Some? <==> forall i :: 0 <= i < |blobs| ==> Decode(lib, blobs[i], rgb).Some?
    ensures DecodeAll(lib, blobs, rgb).Some? ==>
      && |DecodeAll(lib, blobs, rgb).value| == |blobs|
      && forall i :: 0 <= i < |blobs| ==> Decode(lib, blobs[i], rgb) == Some(DecodeAll(lib, blobs, rgb).value[i])
    decreases |blobs|
  {
    if blobs != [] {
      var rest := blobs[1..];
      DecodeAllMeaning(lib, rest, rgb);
      assert forall i :: 0 < i < |blobs| ==> blobs[i] == rest[i - 1];
      if Decode(lib, blobs[0], rgb).Some? && DecodeAll(lib, rest, rgb).None? {
        var k :| 0 <= k < |rest| && Decode(lib, rest[k], rgb).None?;
        assert Decode(lib, blobs[k + 1], rgb).None?;
      }
    }
  }

  /** The outcome of a decoding loop: the images already collected, then
      those of the blobs still to come, or `None` if one of those fails. */
  function PrependCollected<Image>(done: seq<Image>, rest: Option<seq<Image>>): Option<seq<Image>>
  {
    match rest
    case None => None
    case Some(images) => Some(done + images)
  }

  /** One step of a loop that decodes blobs in order: a failing blob fails
      the whole outcome, a decoded one moves to the images collected. */
  lemma DecodeStep<Blob, Image>(lib: Libraries<Blob, Image>, done: seq<Image>, blob: Blob, rest: seq<Blob>, rgb: bool)
    ensures Decode(lib, blob, rgb).None? ==> PrependCollected(done, DecodeAll(lib, [blob] + rest, rgb)) == None
    ensures Decode(lib, blob, rgb).Some? ==>
      PrependCollected(done, DecodeAll(lib, [blob] + rest, rgb))
      == PrependCollected(done + [Decode(lib, blob, rgb).value], DecodeAll(lib, rest, rgb))
  {
    var s := [blob] + rest;
    assert s[0] == blob && s[1..] == rest;
    match DecodeAll(lib, rest, rgb)
    case None =>
    case Some(images) =>
      if Decode(lib, blob, rgb).Some? {
        assert done + ([Decode(lib, blob, rgb).value] + images) == done + [Decode(lib, blob, rgb).value] + images;
      }
  }

  /** The blobs of the image relationships, in relationship-table order. */
  function ImageBlobs<Blob>(rels: seq<Relationship<Blob>>): (blobs: seq<Blob>)
    ensures |blobs| <= |rels|
  {
    if rels == [] then []
    else (if rels[0].relType == ImageRelType then [rels[0].blob] else []) + ImageBlobs(rels[1..])
  }

  /** Relationship tables can be scanned piecewise. */
  lemma {:induction false} ImageBlobsAppend<Blob>(a: seq<Relationship<Blob>>, b: seq<Relationship<Blob>>)
    ensures ImageBlobs(a + b) == ImageBlobs(a) + ImageBlobs(b)
  {
    if a == [] {
      assert a + b == b;
    } else {
      var rest := a[1..];
      var head := if a[0].relType == ImageRelType then [a[0].blob] else [];
      assert (a + b)[0] == a[0] && (a + b)[1..] == rest + b;
      ImageBlobsAppend(rest, b);
      assert ImageBlobs(a + b) == head + ImageBlobs(rest + b);
      assert ImageBlobs(a) == head + ImageBlobs(rest);
    }
  }

  /** A relationship that is not an image contributes nothing, wherever it
      stands in the table. */
  lemma NonImageRelIgnored<Blob>(before: seq<Relationship<Blob>>, rel: Relationship<Blob>, after: seq<Relationship<Blob>>)
    requires rel.relType != ImageRelType
    ensures ImageBlobs(before + [rel] + after) == ImageBlobs(before + after)
  {
    ImageBlobsAppend(before + [rel], after);
    ImageBlobsAppend(before, [rel]);
    ImageBlobsAppend(before, after);
  }

  /** An image relationship contributes exactly its blob, at its position. */
  lemma ImageRelContributes<Blob>(before: seq<Relationship<Blob>>, rel: Relationship<Blob>, after: seq<Relationship<Blob>>)
    requires rel.relType == ImageRelType
    ensures ImageBlobs(before + [rel] + after) == ImageBlobs(before) + [rel.blob] + ImageBlobs(after)
  {
    ImageBlobsAppend(before + [rel], after);
    ImageBlobsAppend(before, [rel]);
  }

  /** The OCR text of each image, index by index. */
  function OcrEach<Blob, Image>(lib: Libraries<Blob, Image>, images: seq<Image>): seq<string>
  {
    seq(|images|, i requires 0 <= i < |images| => lib.ocr(images[i]))
  }

  /** One more image adds its OCR text at the end. */
  lemma OcrEachSnoc<Blob, Image>(lib: Libraries<Blob, Image>, images: seq<Image>, image: Image)
    ensures OcrEach(lib, images + [image]) == OcrEach(lib, images) + [lib.ocr(image)]
  {
  }
}

=== FILE: image_summaries.dfy ===
/**
 * The image section of the model.py page: for every extracted image, its
 * OCR text is stripped; images with blank OCR text are not shown; every
 * other image is shown with the summary of its OCR text. Summaries are kept
 * in a dictionary keyed by the stripped OCR text, so each distinct text is
 * summarised once. The page output is modelled as the list of panels shown.
 */
module ImageSummaries {
  import opened Text
  import opened Summaries

  /** One shown image: its index in the image list, the image, its stripped
      OCR text and the summary displayed beside it. */
  datatype Panel<Image> = Panel(index: nat, image: Image, ocrText: string, summary: string)

  /** The stripped OCR text of each of the first `n` images; an image
      without an OCR entry counts as "". */
  function CleanOcrTexts(ocrTexts: seq<string>, n: nat): seq<string>
  {
    seq(n, i requires 0 <= i < n => Strip(if i < |ocrTexts| then ocrTexts[i] else ""))
  }

  /** Entry `idx` is the stripped OCR text of image `idx`, or "" when the
      OCR list is shorter than the image list; it has no surrounding
      whitespace. */
  lemma CleanOcrTextAt(ocrTexts: seq<string>, n: nat, idx: nat)
    requires idx < n
    ensures CleanOcrTexts(ocrTexts, n)[idx] == Strip(if idx < |ocrTexts| then ocrTexts[idx] else "")
    ensures IsStripped(CleanOcrTexts(ocrTexts, n)[idx])
  {
  }

  /** The indices below `n` whose stripped OCR text is not blank, in
      increasing order. */
  function ShownIndices(cleaned: seq<string>, n: nat): seq<nat>
    requires n <= |cleaned|
  {
    if n == 0 then []
    else ShownIndices(cleaned, n - 1) + (if cleaned[n - 1] != [] then [n - 1] else [])
  }

  /** The shown indices are exactly the indices below `n` with non-blank
      stripped OCR text, each once, in increasing order. */
  lemma {:induction false} ShownIndicesMeaning(cleaned: seq<string>, n: nat)
    requires n <= |cleaned|
    ensures forall j :: 0 <= j < |ShownIndices(cleaned, n)| ==>
      ShownIndices(cleaned, n)[j] < n && cleaned[ShownIndices(cleaned, n)[j]] != []
    ensures forall j, k :: 0 <= j < k < |ShownIndices(cleaned, n)| ==>
      ShownIndices(cleaned, n)[j] < ShownIndices(cleaned, n)[k]
    ensures forall idx :: 0 <= idx < n && cleaned[idx] != [] ==> idx in ShownIndices(cleaned, n)
  {
    if n > 0 {
      ShownIndicesMeaning(cleaned, n - 1);
      var front := ShownIndices(cleaned, n - 1);
      var shown := ShownIndices(cleaned, n);
      assert shown == front + (if cleaned[n - 1] != [] then [n - 1] else []);
      assert forall j :: 0 <= j < |front| ==> shown[j] == front[j];
    }
  }

  /** `summarize_ocr_text` with the language model fixed. */
  function OcrSummarizer(llm: string -> Reply): string -> string
  {
    text => SummarizeOcrText(llm, text)
  }

  /** The panel shown for image `idx`. */
  function PanelFor<Image>(summarize: string -> string, images: seq<Image>, cleaned: seq<string>, idx: nat): Panel<Image>
    requires idx < |images| && idx < |cleaned|
  {
    Panel(idx, images[idx], cleaned[idx], summarize(cleaned[idx]))
  }

  /** The panels shown for the first `n` images. */
  function Panels<Image>(summarize: string -> string, images: seq<Image>, cleaned: seq<string>, n: nat): seq<Panel<Image>>
    requires n <= |images| && n <= |cleaned|
  {
    if n == 0 then []
    else
      Panels(summarize, images, cleaned, n - 1)
        + (if cleaned[n - 1] != [] then [PanelFor(summarize, images, cleaned, n - 1)] else [])
  }

  /** One more image adds its panel exactly when its text is not blank. */
  lemma PanelsStep<Image>(summarize: string -> string, images: seq<Image>, cleaned: seq<string>, idx: nat)
    requires idx < |images| && idx < |cleaned|
    ensures Panels(summarize, images, cleaned, idx + 1)
      == Panels(summarize, images, cleaned, idx)
        + (if cleaned[idx] != [] then [Panel(idx, images[idx], cleaned[idx], summarize(cleaned[idx]))] else [])
  {
  }

  /** There is one panel per shown index, in order: the images without
      OCR text are skipped and every other image has its own panel. */
  lemma {:induction false} PanelsAreShownImages<Image>(summarize: string -> string, images: seq<Image>, cleaned: seq<string>, n: nat)
    requires n <= |images| && n <= |cleaned|
    ensures |Panels(summarize, images, cleaned, n)| == |ShownIndices(cleaned, n)|
    ensures forall j :: 0 <= j < |ShownIndices(cleaned, n)| ==>
      ShownIndices(cleaned, n)[j] < n &&
      Panels(summarize, images, cleaned, n)[j] == PanelFor(summarize, images, cleaned, ShownIndices(cleaned, n)[j])
  {
    ShownIndicesMeaning(cleaned, n);
    if n > 0 {
      PanelsAreShownImages(summarize, images, cleaned, n - 1);
      ShownIndicesMeaning(cleaned, n - 1);
    }
  }

  /** The OCR texts of a list of panels, in panel order. */
  function ShownTexts<Image>(panels: seq<Panel<Image>>): (texts: seq<string>)
    ensures |texts| == |panels|
  {
    if panels == [] then []
    else ShownTexts(panels[..|panels| - 1]) + [panels[|panels| - 1].ocrText]
  }

  /** Text `j` of the list is the OCR text of panel `j`. */
  lemma {:induction false} ShownTextsMeaning<Image>(panels: seq<Panel<Image>>)
    ensures forall j :: 0 <= j < |panels| ==> ShownTexts(panels)[j] == panels[j].ocrText
  {
    if panels != [] {
      var front := panels[..|panels| - 1];
      ShownTextsMeaning(front);
      assert forall j :: 0 <= j < |front| ==> ShownTexts(panels)[j] == ShownTexts(front)[j];
    }
  }

  /** In the page, every shown image's summary is the model's answer to its
      own stripped OCR text (or the failure message): the blank-text message
      of `summarize_ocr_text` is never reached, because blank texts are not
      shown. */
  lemma {:induction false} PanelSummariesAreReplies<Image>(llm: string -> Reply, images: seq<Image>, ocrTexts: seq<string>)
    ensures var panels := Panels(OcrSummarizer(llm), images, CleanOcrTexts(ocrTexts, |images|), |images|);
      forall j :: 0 <= j < |panels| ==>
        && !AllSpace(panels[j].ocrText)
        && panels[j].summary == ReplyText(llm(panels[j].ocrText))
  {
    var cleaned := CleanOcrTexts(ocrTexts, |images|);
    var panels := Panels(OcrSummarizer(llm), images, cleaned, |images|);
    PanelsAreShownImages(OcrSummarizer(llm), images, cleaned, |images|);
    ShownIndicesMeaning(cleaned, |images|);
    forall j | 0 <= j < |panels|
      ensures !AllSpace(panels[j].ocrText) && panels[j].summary == ReplyText(llm(panels[j].ocrText))
    {
      var idx := ShownIndices(cleaned, |images|)[j];
      CleanOcrTextAt(ocrTexts, |images|, idx);
      var t := cleaned[idx];
      assert t != [] && IsStripped(t);
      assert !IsSpace(t[0]);
      assert panels[j] == PanelFor(OcrSummarizer(llm), images, cleaned, idx);
    }
  }

  /** The texts of `texts` in order of first appearance, each once. */
  function FirstOccurrences(texts: seq<string>): seq<string>
  {
    if texts == [] then []
    else
      var front := texts[..|texts| - 1];
      var last := texts[|texts| - 1];
      FirstOccurrences(front) + (if last in front then [] else [last])
  }

  /** Keeping first occurrences loses no text, adds none, and leaves no
      duplicate. */
  lemma {:induction false} FirstOccurrencesMeaning(texts: seq<string>)
    ensures forall t :: t in FirstOccurrences(texts) <==> t in texts
    ensures forall a, b :: 0 <= a < b < |FirstOccurrences(texts)| ==>
      FirstOccurrences(texts)[a] != FirstOccurrences(texts)[b]
  {
    if texts != [] {
      var front := texts[..|texts| - 1];
      var last := texts[|texts| - 1];
      FirstOccurrencesMeaning(front);
      assert texts == front + [last];
    }
  }

  /** Appending a text adds it to the first occurrences exactly when it
      is new. */
  lemma {:induction false} FirstOccurrencesSnoc(texts: seq<string>, t: string)
    ensures FirstOccurrences(texts + [t])
      == FirstOccurrences(texts) + (if t in FirstOccurrences(texts) then [] else [t])
  {
    FirstOccurrencesMeaning(texts);
    assert (texts + [t])[..|texts|] == texts;
  }

  /** The cache is faithful: every cached summary is the summary of its
      key, and the keys are exactly the texts sent so far. */
  ghost predicate CacheValid(summarize: string -> string, cache: map<string, string>, calls: seq<string>)
  {
    && (forall key :: key in cache ==> cache[key] == summarize(key))
    && (forall key :: key in cache <==> key in calls)
  }

  /** One cache lookup: a cached text is answered from the cache; any other
      is summarised (one more call) and cached. */
  method CachedSummary(summarize: string -> string, cache: map<string, string>, calls: seq<string>, key: string)
    returns (summary: string, cache': map<string, string>, calls': seq<string>)
    requires CacheValid(summarize, cache, calls)
    ensures CacheValid(summarize, cache', calls')
    ensures summary == summarize(key)
    ensures calls' == if key in calls then calls else calls + [key]
  {
    if key !in cache {
      summary := summarize(key);
      cache' := cache[key := summary];
      calls' := calls + [key];
    } else {
      summary := cache[key];
      cache', calls' := cache, calls;
    }
  }

  /** One image of the loop: an image with OCR text gets a panel with the
      (possibly cached) summary of that text; an image without gets none. */
  method ShowImage<Image>(summarize: string -> string, cache: map<string, string>, calls: seq<string>,
                          panels: seq<Panel<Image>>, idx: nat, image: Image, cleanOcr: string)
    returns (cache': map<string, string>, calls': seq<string>, panels': seq<Panel<Image>>)
    requires CacheValid(summarize, cache, calls)
    requires calls == FirstOccurrences(ShownTexts(panels))
    ensures CacheValid(summarize, cache', calls')
    ensures calls' == FirstOccurrences(ShownTexts(panels'))
    ensures panels' == panels + (if cleanOcr != [] then [Panel(idx, image, cleanOcr, summarize(cleanOcr))] else [])
  {
    cache', calls', panels' := cache, calls, panels;
    if cleanOcr != [] {
      FirstOccurrencesSnoc(ShownTexts(panels), cleanOcr);
      var summary;
      summary, cache', calls' := CachedSummary(summarize, cache, calls, cleanOcr);
      panels' := panels + [Panel(idx, image, cleanOcr, summary)];
      assert panels'[..|panels|] == panels;
    }
  }

  /** One iteration of the rendering loop, for image `idx`: its OCR entry
      (or "" when there is none) is stripped and shown with its summary
      when not blank. The loop's state moves from the first `idx` images
      to the first `idx + 1`. */
  method RenderImage<Image>(summarize: string -> string, images: seq<Image>, ocrTexts: seq<string>, idx: nat,
                            cache: map<string, string>, calls: seq<string>, panels: seq<Panel<Image>>)
    returns (cache': map<string, string>, calls': seq<string>, panels': seq<Panel<Image>>)
    requires idx < |images|
    requires panels == Panels(summarize, images, CleanOcrTexts(ocrTexts, |images|), idx)
    requires CacheValid(summarize, cache, calls)
    requires calls == FirstOccurrences(ShownTexts(panels))
    ensures panels' == Panels(summarize, images, CleanOcrTexts(ocrTexts, |images|), idx + 1)
    ensures CacheValid(summarize, cache', calls')
    ensures calls' == FirstOccurrences(ShownTexts(panels'))
  {
    var img := images[idx];
    var ocrImgText := if idx < |ocrTexts| then ocrTexts[idx] else "";
    var cleanOcr := Strip(ocrImgText);
    CleanOcrTextAt(ocrTexts, |images|, idx);
    PanelsStep(summarize, images, CleanOcrTexts(ocrTexts, |images|), idx);
    cache', calls', panels' := ShowImage(summarize, cache, calls, panels, idx, img, cleanOcr);
  }

  /** The rendering loop with its summary cache, for the summariser
      `summarize` (`OcrSummarizer` in the page).
      `calls` lists the texts sent for summarisation, in order. The panels
      are those of the images with non-blank stripped OCR text, in order,
      each with the summary of its own text (so the cache never changes
      what is shown); the calls are the distinct texts shown, in order of
      first appearance. */
  method RenderImageSummaries<Image>(summarize: string -> string, images: seq<Image>, ocrTexts: seq<string>)
    returns (panels: seq<Panel<Image>>, calls: seq<string>)
    ensures panels == Panels(summarize, images, CleanOcrTexts(ocrTexts, |images|), |images|)
    ensures calls == FirstOccurrences(ShownTexts(panels))
  {
    var cache: map<string, string> := map[];
    panels := [];
    calls := [];
    for idx := 0 to |images|
      invariant panels == Panels(summarize, images, CleanOcrTexts(ocrTexts, |images|), idx)
      invariant CacheValid(summarize, cache, calls)
      invariant calls == FirstOccurrences(ShownTexts(panels))
    {
      cache, calls, panels := RenderImage(summarize, images, ocrTexts, idx, cache, calls, panels);
    }
  }

  /** Every distinct shown text is sent for summarisation exactly once. */
  lemma {:induction false} EachTextSummarisedOnce<Image>(panels: seq<Panel<Image>>, calls: seq<string>)
    requires calls == FirstOccurrences(ShownTexts(panels))
    ensures forall t :: t in calls <==> exists j :: 0 <= j < |panels| && panels[j].ocrText == t
    ensures forall a, b :: 0 <= a < b < |calls| ==> calls[a] != calls[b]
  {
    var texts := ShownTexts(panels);
    FirstOccurrencesMeaning(texts);
    ShownTextsMeaning(panels);
    forall t | t in calls ensures exists j :: 0 <= j < |panels| && panels[j].ocrText == t {
      var j :| 0 <= j < |texts| && texts[j] == t;
      assert panels[j].ocrText == t;
    }
    forall t | exists j :: 0 <= j < |panels| && panels[j].ocrText == t ensures t in calls {
      var j :| 0 <= j < |panels| && panels[j].ocrText == t;
      assert texts[j] == t;
    }
  }
}

=== FILE: inline_extractor.dfy ===
/**
 * The extractor of model.py: text plus the images embedded in the document,
 * each with its own OCR text. PDF images are the embedded image objects of
 * every page; DOCX images are the image parts of the relationship table.
 * Every image is converted to RGB before OCR.
 */
module InlineExtractor {
  import opened Text
  import opened Documents

  /** The extractor's result: stripped text, the images in encounter order
      and, index by index, their OCR texts. */
  datatype InlineExtraction<Image> = InlineExtraction(text: string, images: seq<Image>, ocrTextsPerImage: seq<string>)

  /** The images an extraction finds, before OCR. */
  function InlineImages<Blob, Image>(lib: Libraries<Blob, Image>, file: Upload): Result<seq<Image>>
  {
    match FormatOf(file.name)
    case Pdf =>
      (match lib.pdfPageImages(file.content)
       case None => Err(PdfOpenFailed)
       case Some(pages) =>
         (match DecodeAll(lib, Concat(pages), true)
          case None => Err(ImageDecodeFailed)
          case Some(images) => Ok(images)))
    case Docx =>
      (match lib.openDocx(file.content)
       case None => Err(DocxOpenFailed)
       case Some(pkg) =>
         (match DecodeAll(lib, ImageBlobs(pkg.rels), true)
          case None => Err(ImageDecodeFailed)
          case Some(images) => Ok(images)))
    case Txt => if lib.readUtf8(file.content).None? then Err(Utf8DecodeFailed) else Ok([])
    case Unsupported(_) => Ok([])
  }

  /** The specification of the extractor: the stripped handler text, the
      images found, and one OCR text per image at the same index. */
  function Extraction<Blob, Image>(lib: Libraries<Blob, Image>, file: Upload): (r: Result<InlineExtraction<Image>>)
    ensures r.Ok? ==> IsStripped(r.value.text)
    ensures r.Ok? ==> |r.value.images| == |r.value.ocrTextsPerImage|
    ensures r.Ok? ==> forall i :: 0 <= i < |r.value.images| ==>
      r.value.ocrTextsPerImage[i] == lib.ocr(r.value.images[i])
  {
    match HandlerText(lib, file)
    case Err(f) => Err(f)
    case Ok(text) =>
      match InlineImages(lib, file)
      case Err(f) => Err(f)
      case Ok(images) => Ok(InlineExtraction(Strip(text), images, OcrEach(lib, images)))
  }

  /** The inner loop of the PDF image pass, over the blobs of one page:
      each is decoded, converted to RGB and OCR'd, and appended. `ok` is
      false when a blob cannot be decoded; then the whole pass fails.
      `later` are the blobs of the pages still to come. */
  method CollectPageImages<Blob, Image>(lib: Libraries<Blob, Image>, blobs: seq<Blob>, ghost later: seq<Blob>,
                                        imageList: seq<Image>, ocrTexts: seq<string>)
    returns (ok: bool, imageList': seq<Image>, ocrTexts': seq<string>)
    requires ocrTexts == OcrEach(lib, imageList)
    ensures ocrTexts' == OcrEach(lib, imageList')
    ensures ok ==>
      PrependCollected(imageList', DecodeAll(lib, later, true))
        == PrependCollected(imageList, DecodeAll(lib, blobs + later, true))
    ensures !ok ==> PrependCollected(imageList, DecodeAll(lib, blobs + later, true)) == None
  {
    imageList', ocrTexts' := imageList, ocrTexts;
    ghost var all := PrependCollected(imageList, DecodeAll(lib, blobs + later, true));
    assert blobs[0..] == blobs;
    var k := 0;
    while k < |blobs|
      invariant 0 <= k <= |blobs|
      invariant PrependCollected(imageList', DecodeAll(lib, blobs[k..] + later, true)) == all
      invariant ocrTexts' == OcrEach(lib, imageList')
    {
      assert blobs[k..] + later == [blobs[k]] + (blobs[k + 1..] + later);
      DecodeStep(lib, imageList', blobs[k], blobs[k + 1..] + later, true);
      var decoded := lib.openImage(blobs[k]);
      if decoded.None? {
        return false, imageList', ocrTexts';
      }
      var image := lib.toRgb(decoded.value);
      OcrEachSnoc(lib, imageList', image);
      imageList' := imageList' + [image];
      ocrTexts' := ocrTexts' + [lib.ocr(image)];
      k := k + 1;
    }
    assert blobs[k..] + later == later;
    return true, imageList', ocrTexts';
  }

  /** The image pass over a PDF: the embedded images of every page, in page
      order, each converted to RGB and OCR'd as soon as it is decoded.
      `None` when a blob cannot be decoded. */
  method CollectPdfImages<Blob, Image>(lib: Libraries<Blob, Image>, pages: seq<seq<Blob>>)
    returns (images: Option<seq<Image>>, ocrTexts: seq<string>)
    ensures images == DecodeAll(lib, Concat(pages), true)
    ensures images.Some? ==> ocrTexts == OcrEach(lib, images.value)
  {
    var imageList: seq<Image> := [];
    ocrTexts := [];
    ghost var all := DecodeAll(lib, Concat(pages), true);
    assert pages[0..] == pages;
    assert all.Some? ==> [] + all.value == all.value;
    var p := 0;
    while p < |pages|
      invariant 0 <= p <= |pages|
      invariant PrependCollected(imageList, DecodeAll(lib, Concat(pages[p..]), true)) == all
      invariant ocrTexts == OcrEach(lib, imageList)
    {
      assert pages[p..][1..] == pages[p + 1..];
      assert Concat(pages[p..]) == pages[p] + Concat(pages[p + 1..]);
      var ok;
      ok, imageList, ocrTexts := CollectPageImages(lib, pages[p], Concat(pages[p + 1..]), imageList, ocrTexts);
      if !ok {
        return None, ocrTexts;
      }
      p := p + 1;
    }
    assert pages[p..] == [] && imageList + [] == imageList;
    return Some(imageList), ocrTexts;
  }

  /** The image pass over a DOCX relationship table: every image
      relationship, in table order, decoded, converted to RGB and OCR'd;
      other relationships are passed over. `None` when a blob cannot be
      decoded. */
  method CollectDocxImages<Blob, Image>(lib: Libraries<Blob, Image>, rels: seq<Relationship<Blob>>)
    returns (images: Option<seq<Image>>, ocrTexts: seq<string>)
    ensures images == DecodeAll(lib, ImageBlobs(rels), true)
    ensures images.Some? ==> ocrTexts == OcrEach(lib, images.value)
  {
    var imageList: seq<Image> := [];
    ocrTexts := [];
    ghost var all := DecodeAll(lib, ImageBlobs(rels), true);
    assert rels[0..] == rels;
    assert all.Some? ==> [] + all.value == all.value;
    var i := 0;
    while i < |rels|
      invariant 0 <= i <= |rels|
      invariant PrependCollected(imageList, DecodeAll(lib, ImageBlobs(rels[i..]), true)) == all
      invariant ocrTexts == OcrEach(lib, imageList)
    {
      assert rels[i..][0] == rels[i] && rels[i..][1..] == rels[i + 1..];
      if rels[i].relType == ImageRelType {
        assert ImageBlobs(rels[i..]) == [rels[i].blob] + ImageBlobs(rels[i + 1..]);
        DecodeStep(lib, imageList, rels[i].blob, ImageBlobs(rels[i + 1..]), true);
        var decoded := lib.openImage(rels[i].blob);
        if decoded.None? {
          return None, ocrTexts;
        }
        var image := lib.toRgb(decoded.value);
        OcrEachSnoc(lib, imageList, image);
        imageList := imageList + [image];
        ocrTexts := ocrTexts + [lib.ocr(image)];
      } else {
        assert ImageBlobs(rels[i..]) == ImageBlobs(rels[i + 1..]);
      }
      i := i + 1;
    }
    assert rels[i..] == [] && imageList + [] == imageList;
    return Some(imageList), ocrTexts;
  }

  /** The extractor: routes on the lower-cased suffix, builds the text and,
      for PDF and DOCX, the images with their OCR texts. */
  method ExtractTextAndInlineImages<Blob, Image>(lib: Libraries<Blob, Image>, file: Upload)
    returns (r: Result<InlineExtraction<Image>>)
    ensures r == Extraction(lib, file)
  {
    FormatOfCases(file.name);
    var suffix := Lower(Suffix(file.name));
    var text := "";
    var imageList: seq<Image> := [];
    var ocrTexts: seq<string> := [];

    if suffix == ".pdf" {
      text := PdfText(lib.pdfPageTexts(file.content));
      var doc := lib.pdfPageImages(file.content);
      if doc.None? {
        return Err(PdfOpenFailed);
      }
      var images;
      images, ocrTexts := CollectPdfImages(lib, doc.value);
      if images.None? {
        return Err(ImageDecodeFailed);
      }
      imageList := images.value;
    } else if suffix == ".docx" {
      var doc := lib.openDocx(file.content);
      if doc.None? {
        return Err(DocxOpenFailed);
      }
      text := Join("\n", doc.value.paragraphs);
      var images;
      images, ocrTexts := CollectDocxImages(lib, doc.value.rels);
      if images.None? {
        return Err(ImageDecodeFailed);
      }
      imageList := images.value;
    } else if suffix == ".txt" {
      var content := lib.readUtf8(file.content);
      if content.None? {
        return Err(Utf8DecodeFailed);
      }
      text := UniversalNewlines(content.value);
    } else {
      text := UnsupportedPrefix + suffix;
    }
    return Ok(InlineExtraction(Strip(text), imageList, ocrTexts));
  }

  /** The images of a PDF are its embedded image blobs, page after page,
      each decoded and converted to RGB; the extraction fails exactly when
      one of them cannot be decoded. */
  lemma PdfImagesMeaning<Blob, Image>(lib: Libraries<Blob, Image>, file: Upload, pages: seq<seq<Blob>>)
    requires FormatOf(file.name) == Pdf
    requires lib.pdfPageImages(file.content) == Some(pages)
    ensures Extraction(lib, file).Ok? <==>
      forall i :: 0 <= i < |Concat(pages)| ==> lib.openImage(Concat(pages)[i]).Some?
    ensures Extraction(lib, file).Ok? ==>
      var images := Extraction(lib, file).value.images;
      && |images| == |Concat(pages)|
      && forall i :: 0 <= i < |images| ==> images[i] == lib.toRgb(lib.openImage(Concat(pages)[i]).value)
  {
    DecodeAllMeaning(lib, Concat(pages), true);
  }

  /** The images of a DOCX are the blobs of its image relationships, in
      table order, each decoded and converted to RGB; the extraction fails
      exactly when one of them cannot be decoded. */
  lemma DocxImagesMeaning<Blob, Image>(lib: Libraries<Blob, Image>, file: Upload, pkg: DocxPackage<Blob>)
    requires FormatOf(file.name) == Docx
    requires lib.openDocx(file.content) == Some(pkg)
    ensures Extraction(lib, file).Ok? <==>
      forall i :: 0 <= i < |ImageBlobs(pkg.rels)| ==> lib.openImage(ImageBlobs(pkg.rels)[i]).Some?
    ensures Extraction(lib, file).Ok? ==>
      var images := Extraction(lib, file).value.images;
      && |images| == |ImageBlobs(pkg.rels)|
      && forall i :: 0 <= i < |images| ==> images[i] == lib.toRgb(lib.openImage(ImageBlobs(pkg.rels)[i]).value)
  {
    DecodeAllMeaning(lib, ImageBlobs(pkg.rels), true);
  }

  /** A suffix outside .pdf, .docx and .txt (in any letter case) yields the
      stripped sentinel text and no images. */
  lemma UnsupportedSentinel<Blob, Image>(lib: Libraries<Blob, Image>, file: Upload)
    requires Lower(Suffix(file.name)) !in [".pdf", ".docx", ".txt"]
    ensures Extraction(lib, file)
      == Ok(InlineExtraction(Strip(UnsupportedPrefix + Lower(Suffix(file.name))), [], []))
  {
    FormatOfCases(file.name);
  }

  /** A PDF whose text layer cannot be read still has its images extracted;
      only the text is lost. */
  lemma PdfTextFailureKeepsImages<Blob, Image>(lib: Libraries<Blob, Image>, file: Upload, images: seq<Image>)
    requires FormatOf(file.name) == Pdf
    requires lib.pdfPageTexts(file.content).None?
    requires lib.pdfPageImages(file.content).Some?
    requires DecodeAll(lib, Concat(lib.pdfPageImages(file.content).value), true) == Some(images)
    ensures Extraction(lib, file) == Ok(InlineExtraction("", images, OcrEach(lib, images)))
  {
    StripStripped("");
  }
}

=== FILE: page_extractor.dfy ===
/**
 * The extractor of tempapp.py: text plus one OCR string for the whole
 * document. PDF images are the pages rendered as images and their OCR texts
 * are joined by spaces; DOCX images are the image parts of the relationship
 * table, decoded without colour conversion, each OCR text followed by a
 * newline. There is no per-image OCR list.
 */
module PageExtractor {
  import opened Text
  import opened Documents
  import InlineExtractor

  /** The extractor's result: stripped text, stripped OCR text, images. */
  datatype PageExtraction<Image> = PageExtraction(text: string, ocrText: string, images: seq<Image>)

  /** The DOCX OCR text: each image's OCR text followed by a newline, in
      image order. */
  function OcrLines<Blob, Image>(lib: Libraries<Blob, Image>, images: seq<Image>): string
  {
    if images == [] then ""
    else OcrLines(lib, images[..|images| - 1]) + lib.ocr(images[|images| - 1]) + "\n"
  }

  /** The DOCX OCR text is the newline join of the per-image OCR texts, with
      one more newline at the end. */
  lemma {:induction false} OcrLinesIsJoin<Blob, Image>(lib: Libraries<Blob, Image>, images: seq<Image>)
    requires images != []
    ensures OcrLines(lib, images) == Join("\n", OcrEach(lib, images)) + "\n"
    decreases |images|
  {
    var n := |images|;
    if n > 1 {
      var front := images[..n - 1];
      OcrLinesIsJoin(lib, front);
      JoinSnoc("\n", OcrEach(lib, front), lib.ocr(images[n - 1]));
      assert OcrEach(lib, front) + [lib.ocr(images[n - 1])] == OcrEach(lib, images);
    } else {
      assert images[..0] == [];
    }
  }

  /** The images an extraction finds and the OCR text it builds from them,
      before the final strip. */
  function PageImages<Blob, Image>(lib: Libraries<Blob, Image>, file: Upload): Result<(seq<Image>, string)>
  {
    match FormatOf(file.name)
    case Pdf =>
      (match lib.rasterizePdf(file.content)
       case None => Err(PdfRasterizeFailed)
       case Some(images) => Ok((images, Join(" ", OcrEach(lib, images)))))
    case Docx =>
      (match lib.openDocx(file.content)
       case None => Err(DocxOpenFailed)
       case Some(pkg) =>
         (match DecodeAll(lib, ImageBlobs(pkg.rels), false)
          case None => Err(ImageDecodeFailed)
          case Some(images) => Ok((images, OcrLines(lib, images)))))
    case Txt => if lib.readUtf8(file.content).None? then Err(Utf8DecodeFailed) else Ok(([], ""))
    case Unsupported(_) => Ok(([], ""))
  }

  /** The specification of the extractor: exactly the stripped text, the
      stripped OCR text and the images. */
  function Extraction<Blob, Image>(lib: Libraries<Blob, Image>, file: Upload): (r: Result<PageExtraction<Image>>)
    ensures r.Ok? ==> IsStripped(r.value.text) && IsStripped(r.value.ocrText)
  {
    match HandlerText(lib, file)
    case Err(f) => Err(f)
    case Ok(text) =>
      match PageImages(lib, file)
      case Err(f) => Err(f)
      case Ok((images, ocrText)) => Ok(PageExtraction(Strip(text), Strip(ocrText), images))
  }

  /** The image pass over a DOCX relationship table: every image
      relationship, in table order, decoded (without colour conversion) and
      OCR'd, its OCR text and a newline appended to the OCR string; other
      relationships are passed over. `None` when a blob cannot be decoded. */
  method CollectDocxImages<Blob, Image>(lib: Libraries<Blob, Image>, rels: seq<Relationship<Blob>>)
    returns (images: Option<seq<Image>>, ocrText: string)
    ensures images == DecodeAll(lib, ImageBlobs(rels), false)
    ensures images.Some? ==> ocrText == OcrLines(lib, images.value)
  {
    var imageList: seq<Image> := [];
    ocrText := "";
    ghost var all := DecodeAll(lib, ImageBlobs(rels), false);
    assert rels[0..] == rels;
    assert all.Some? ==> [] + all.value == all.value;
    var i := 0;
    while i < |rels|
      invariant 0 <= i <= |rels|
      invariant PrependCollected(imageList, DecodeAll(lib, ImageBlobs(rels[i..]), false)) == all
      invariant ocrText == OcrLines(lib, imageList)
    {
      assert rels[i..][0] == rels[i] && rels[i..][1..] == rels[i + 1..];
      if rels[i].relType == ImageRelType {
        assert ImageBlobs(rels[i..]) == [rels[i].blob] + ImageBlobs(rels[i + 1..]);
        DecodeStep(lib, imageList, rels[i].blob, ImageBlobs(rels[i + 1..]), false);
        var image := lib.openImage(rels[i].blob);
        if image.None? {
          return None, ocrText;
        }
        ghost var before := imageList;
        imageList := imageList + [image.value];
        assert imageList[..|imageList| - 1] == before;
        ocrText := ocrText + lib.ocr(image.value) + "\n";
      } else {
        assert ImageBlobs(rels[i..]) == ImageBlobs(rels[i + 1..]);
      }
      i := i + 1;
    }
    assert rels[i..] == [] && imageList + [] == imageList;
    return Some(imageList), ocrText;
  }

  /** The extractor: routes on the lower-cased suffix, builds the text, the
      images and the OCR text. */
  method ExtractTextAndImages<Blob, Image>(lib: Libraries<Blob, Image>, file: Upload)
    returns (r: Result<PageExtraction<Image>>)
    ensures r == Extraction(lib, file)
  {
    FormatOfCases(file.name);
    var suffix := Lower(Suffix(file.name));
    var text := "";
    var ocrText := "";
    var imageList: seq<Image> := [];

    if suffix == ".pdf" {
      text := PdfText(lib.pdfPageTexts(file.content));
      var images := lib.rasterizePdf(file.content);
      if images.None? {
        return Err(PdfRasterizeFailed);
      }
      assert imageList + images.value == images.value;
      imageList := imageList + images.value;
      ocrText := Join(" ", OcrEach(lib, images.value));
    } else if suffix == ".docx" {
      var doc := lib.openDocx(file.content);
      if doc.None? {
        return Err(DocxOpenFailed);
      }
      text := Join("\n", doc.value.paragraphs);
      var images;
      images, ocrText := CollectDocxImages(lib, doc.value.rels);
      if images.None? {
        return Err(ImageDecodeFailed);
      }
      imageList := images.value;
    } else if suffix == ".txt" {
      var content := lib.readUtf8(file.content);
      if content.None? {
        return Err(Utf8DecodeFailed);
      }
      text := UniversalNewlines(content.value);
    } else {
      text := UnsupportedPrefix + suffix;
    }
    return Ok(PageExtraction(Strip(text), Strip(ocrText), imageList));
  }

  /** An unsupported suffix yields the stripped sentinel text, no OCR text
      and no images. */
  lemma UnsupportedSentinel<Blob, Image>(lib: Libraries<Blob, Image>, file: Upload)
    requires Lower(Suffix(file.name)) !in [".pdf", ".docx", ".txt"]
    ensures Extraction(lib, file)
      == Ok(PageExtraction(Strip(UnsupportedPrefix + Lower(Suffix(file.name))), "", []))
  {
    FormatOfCases(file.name);
  }

  /** A PDF's images are its rendered pages, in order, and its OCR text is
      the stripped space join of their OCR texts; the text layer (possibly
      "" after a reader failure) does not affect either. */
  lemma PdfUsesRenderedPages<Blob, Image>(lib: Libraries<Blob, Image>, file: Upload, pages: seq<Image>)
    requires FormatOf(file.name) == Pdf
    requires lib.rasterizePdf(file.content) == Some(pages)
    ensures Extraction(lib, file) == Ok(PageExtraction(
      Strip(PdfText(lib.pdfPageTexts(file.content))), Strip(Join(" ", OcrEach(lib, pages))), pages))
  {
  }

  /** A text file gives its stripped content (newlines translated), no OCR
      text and no images. */
  lemma TxtHasNoImages<Blob, Image>(lib: Libraries<Blob, Image>, file: Upload, content: string)
    requires FormatOf(file.name) == Txt
    requires lib.readUtf8(file.content) == Some(content)
    ensures Extraction(lib, file) == Ok(PageExtraction(Strip(UniversalNewlines(content)), "", []))
  {
  }

  /** The images of a DOCX are the blobs of its image relationships, in
      table order, each decoded without colour conversion; the extraction
      fails exactly when one of them cannot be decoded. */
  lemma DocxImagesMeaning<Blob, Image>(lib: Libraries<Blob, Image>, file: Upload, pkg: DocxPackage<Blob>)
    requires FormatOf(file.name) == Docx
    requires lib.openDocx(file.content) == Some(pkg)
    ensures Extraction(lib, file).Ok? <==>
      forall i :: 0 <= i < |ImageBlobs(pkg.rels)| ==> lib.openImage(ImageBlobs(pkg.rels)[i]).Some?
    ensures Extraction(lib, file).Ok? ==>
      var images := Extraction(lib, file).value.images;
      && |images| == |ImageBlobs(pkg.rels)|
      && forall i :: 0 <= i < |images| ==> images[i] == lib.openImage(ImageBlobs(pkg.rels)[i]).value
  {
    DecodeAllMeaning(lib, ImageBlobs(pkg.rels), false);
  }

  /** For a DOCX, the OCR text is the stripped newline join of the
      per-image OCR texts ("" when there is no image). */
  lemma DocxOcrText<Blob, Image>(lib: Libraries<Blob, Image>, file: Upload, pkg: DocxPackage<Blob>, images: seq<Image>)
    requires FormatOf(file.name) == Docx
    requires lib.openDocx(file.content) == Some(pkg)
    requires DecodeAll(lib, ImageBlobs(pkg.rels), false) == Some(images)
    ensures Extraction(lib, file).Ok?
    ensures Extraction(lib, file).value.ocrText == Strip(Join("\n", OcrEach(lib, images)) + "\n")
  {
    if images == [] {
      assert IsSpace('\n');
      assert AllSpace(Join("\n", OcrEach(lib, images)) + "\n");
    } else {
      OcrLinesIsJoin(lib, images);
    }
  }

  /** Both extractors build the same text whenever both succeed. */
  lemma VariantsAgreeOnText<Blob, Image>(lib: Libraries<Blob, Image>, file: Upload)
    requires InlineExtractor.Extraction(lib, file).Ok? && Extraction(lib, file).Ok?
    ensures InlineExtractor.Extraction(lib, file).value.text == Extraction(lib, file).value.text
  {
  }

  /** On a DOCX the two extractors succeed together and find the same
      images, except that model.py converts each to RGB. */
  lemma VariantsAgreeOnDocxImages<Blob, Image>(lib: Libraries<Blob, Image>, file: Upload)
    requires FormatOf(file.name) == Docx
    ensures InlineExtractor.Extraction(lib, file).Ok? <==> Extraction(lib, file).Ok?
    ensures Extraction(lib, file).Ok? ==>
      var inline := InlineExtractor.Extraction(lib, file).value.images;
      var plain := Extraction(lib, file).value.images;
      |inline| == |plain| && forall i :: 0 <= i < |plain| ==> inline[i] == lib.toRgb(plain[i])
  {
    match lib.openDocx(file.content)
    case None =>
    case Some(pkg) =>
      var blobs := ImageBlobs(pkg.rels);
      DecodeAllMeaning(lib, blobs, true);
      DecodeAllMeaning(lib, blobs, false);
      forall i | 0 <= i < |blobs|
        ensures Decode(lib, blobs[i], true).Some? <==> Decode(lib, blobs[i], false).Some?
      {
      }
      var rgb, plain := DecodeAll(lib, blobs, true), DecodeAll(lib, blobs, false);
      assert rgb.Some? <==> plain.Some?;
      if plain.Some? {
        forall i | 0 <= i < |blobs|
          ensures rgb.value[i] == lib.toRgb(plain.value[i])
        {
          assert Decode(lib, blobs[i], true) == Some(rgb.value[i]);
          assert Decode(lib, blobs[i], false) == Some(plain.value[i]);
        }
      }
  }
}

=== FILE: summaries.dfy ===
/**
 * The summarisation steps of model.py around the language model: one
 * summary per chunk of the document text, reduced once more when there is
 * more than one chunk or the joined summaries are long, and the summary of
 * one image's OCR text. The model is a function from prompt text to reply;
 * the prompt wording around the text is not modelled.
 */
module Summaries {
  import opened Text
  import opened Chunking

  /** Above this many words the joined chunk summaries are summarised once
      more. */
  const ReduceWordLimit := 700

  /** The chunker's `max_tokens` argument at this call site (it has no
      effect on the chunks). */
  const ChunkMaxTokens := 700

  /** `summarize_with_groq`: the model's reply for a text, stripped. */
  function SummarizeWithModel(llm: string -> string, text: string): (summary: string)
    ensures IsStripped(summary)
  {
    Strip(llm(text))
  }

  /** The summary of each chunk, in chunk order. */
  function ChunkSummaries(llm: string -> string, chunks: seq<string>): seq<string>
  {
    seq(|chunks|, i requires 0 <= i < |chunks| => SummarizeWithModel(llm, chunks[i]))
  }

  /** Whether the chunk summaries are summarised once more. */
  predicate NeedsReduction(summaries: seq<string>)
  {
    |summaries| > 1 || |Split(Join("\n", summaries))| > ReduceWordLimit
  }

  /** `summarize_pdf_text`: `calls` lists the texts sent to the model, in
      order. There is one call per chunk, in chunk order, then one more call
      on the newline join of the chunk summaries exactly when a reduction is
      needed; the result is the stripped reduction or join. Blank text makes
      no call and gives "". */
  method SummarizePdfText(llm: string -> string, fullText: string)
    returns (summary: string, calls: seq<string>)
    ensures var chunks := ChunkText(fullText);
      && |calls| >= |chunks|
      && calls[..|chunks|] == chunks
      && var summaries := ChunkSummaries(llm, chunks);
      && var joined := Join("\n", summaries);
      && calls[|chunks|..] == (if NeedsReduction(summaries) then [joined] else [])
      && summary == Strip(if NeedsReduction(summaries) then SummarizeWithModel(llm, joined) else joined)
    ensures IsStripped(summary)
    ensures AllSpace(fullText) ==> summary == "" && calls == []
  {
    var chunks := ChunkByTokens(fullText, ChunkMaxTokens);
    var summaries: seq<string> := [];
    calls := [];
    for i := 0 to |chunks|
      invariant summaries == ChunkSummaries(llm, chunks[..i])
      invariant calls == chunks[..i]
    {
      var s := SummarizeWithModel(llm, chunks[i]);
      assert chunks[..i + 1] == chunks[..i] + [chunks[i]];
      calls := calls + [chunks[i]];
      summaries := summaries + [s];
    }
    assert chunks[..|chunks|] == chunks;
    var combined := Join("\n", summaries);
    if |summaries| > 1 || |Split(combined)| > ReduceWordLimit {
      calls := calls + [combined];
      combined := SummarizeWithModel(llm, combined);
    }
    assert calls[..|chunks|] == chunks;
    summary := Strip(combined);
    if AllSpace(fullText) {
      NoChunksIffBlank(fullText);
      assert Split("") == [];
    }
  }

  const NoOcrContent := "No OCR content found to summarize."
  const OcrFailurePrefix := "OCR summarization failed: "

  /** The model's answer to an OCR summarisation request, or the message of
      the exception it raised. */
  datatype Reply = Answer(content: string) | Failed(message: string)

  /** What the page shows for the model's answer: the stripped content of a
      reply, or the failure prefix followed by the exception's message. */
  function ReplyText(reply: Reply): string
  {
    match reply
    case Answer(content) => Strip(content)
    case Failed(message) => OcrFailurePrefix + message
  }

  /** `summarize_ocr_text`: blank OCR text is not sent to the model; a model
      failure becomes a message instead of an exception. */
  function SummarizeOcrText(llm: string -> Reply, ocrText: string): string
  {
    if Strip(ocrText) == [] then NoOcrContent else ReplyText(llm(ocrText))
  }

  /** The model is consulted on the OCR text itself and on nothing else, and
      not at all for blank text: two models that give the same reply for
      the text (any two models, when the text is blank) give the same
      summary. */
  lemma OcrSummaryDependsOnlyOnReply(llm1: string -> Reply, llm2: string -> Reply, ocrText: string)
    requires !AllSpace(ocrText) ==> llm1(ocrText) == llm2(ocrText)
    ensures SummarizeOcrText(llm1, ocrText) == SummarizeOcrText(llm2, ocrText)
  {
  }
}

=== FILE: text.dfy ===
/**
 * The handful of Python `str` operations the extraction pipeline relies on:
 * `isspace`, `strip()`, `split()`, `sep.join(parts)`, `lower()` and the
 * newline translation Python applies when a file is read in text mode.
 */
module Text {

  /** The characters Python's `str.isspace` accepts, as inclusive ranges
      (the whitespace `strip()` and `split()`, both without arguments,
      remove). */
  const SpaceRanges: seq<(char, char)> := [
    ('\t', '\r'), ('\U{1C}', ' '), ('\U{85}', '\U{85}'), ('\U{A0}', '\U{A0}'),
    ('\U{1680}', '\U{1680}'), ('\U{2000}', '\U{200A}'), ('\U{2028}', '\U{2029}'),
    ('\U{202F}', '\U{202F}'), ('\U{205F}', '\U{205F}'), ('\U{3000}', '\U{3000}')]

  predicate InRanges(c: char, ranges: seq<(char, char)>)
  {
    ranges != [] && ((ranges[0].0 <= c <= ranges[0].1) || InRanges(c, ranges[1..]))
  }

  /** Python's `str.isspace` for one character. */
  predicate IsSpace(c: char)
  {
    InRanges(c, SpaceRanges)
  }

  /** Every character of `s` is whitespace (vacuously true of ""). */
  predicate AllSpace(s: string)
  {
    forall i :: 0 <= i < |s| ==> IsSpace(s[i])
  }

  /** A string with no whitespace at either end, as `strip()` returns. */
  predicate IsStripped(s: string)
  {
    s == [] || (!IsSpace(s[0]) && !IsSpace(s[|s| - 1]))
  }

  /** A word as `split()` produces it: non-empty, without whitespace. */
  predicate IsWord(w: string)
  {
    w != [] && forall i :: 0 <= i < |w| ==> !IsSpace(w[i])
  }

  /** The end of the run of whitespace that starts at index `i`. */
  function SpacesFrom(s: string, i: nat): (j: nat)
    requires i <= |s|
    ensures i <= j <= |s|
    ensures forall k :: i <= k < j ==> IsSpace(s[k])
    ensures j < |s| ==> !IsSpace(s[j])
    decreases |s| - i
  {
    if i < |s| && IsSpace(s[i]) then SpacesFrom(s, i + 1) else i
  }

  /** The start of the run of whitespace that ends just before index `j`. */
  function SpacesBefore(s: string, j: nat): (i: nat)
    requires j <= |s|
    ensures i <= j
    ensures forall k :: i <= k < j ==> IsSpace(s[k])
    ensures 0 < i ==> !IsSpace(s[i - 1])
  {
    if 0 < j && IsSpace(s[j - 1]) then SpacesBefore(s, j - 1) else j
  }

  /** Python's `s.strip()`: `s` without its leading and trailing
      whitespace. The result is stripped, and it is empty exactly when `s`
      is all whitespace. */
  function Strip(s: string): (r: string)
    ensures IsStripped(r)
    ensures r == [] <==> AllSpace(s)
  {
    var start := SpacesFrom(s, 0);
    if start == |s| then []
    else
      var end := SpacesBefore(s, |s|);
      assert start < end;
      s[start..end]
  }

  /** `strip()` removes whitespace only: its result is the part of `s` that
      starts right after the leading whitespace, and only whitespace follows
      it in `s`. */
  lemma StripRemovesOnlySpaces(s: string)
    ensures SpacesFrom(s, 0) + |Strip(s)| <= |s|
    ensures forall i :: 0 <= i < |Strip(s)| ==> Strip(s)[i] == s[SpacesFrom(s, 0) + i]
    ensures forall i :: SpacesFrom(s, 0) + |Strip(s)| <= i < |s| ==> IsSpace(s[i])
  {
  }

  /** Stripping is idempotent: a stripped string is its own `strip()`. */
  lemma StripStripped(s: string)
    requires IsStripped(s)
    ensures Strip(s) == s
  {
    if s != [] {
      assert SpacesFrom(s, 0) == 0 && SpacesBefore(s, |s|) == |s|;
      assert s[0..|s|] == s;
    }
  }

  /** Length of the run of non-whitespace characters that starts `s`. */
  function WordEnd(s: string): (n: nat)
    ensures n <= |s|
    ensures forall i :: 0 <= i < n ==> !IsSpace(s[i])
    ensures n < |s| ==> IsSpace(s[n])
  {
    if s == [] || IsSpace(s[0]) then 0 else 1 + WordEnd(s[1..])
  }

  /** Python's `s.split()` without arguments: the maximal runs of
      non-whitespace characters, in order. */
  function Split(s: string): (words: seq<string>)
    ensures forall i :: 0 <= i < |words| ==> IsWord(words[i])
    decreases |s|
  {
    if s == [] then []
    else if IsSpace(s[0]) then Split(s[1..])
    else
      var n := WordEnd(s);
      [s[..n]] + Split(s[n..])
  }

  /** Python's `sep.join(parts)`. */
  function Join(sep: string, parts: seq<string>): string
  {
    if |parts| == 0 then ""
    else if |parts| == 1 then parts[0]
    else parts[0] + sep + Join(sep, parts[1..])
  }

  /** Concatenation of a sequence of sequences, in order. */
  function Concat<T>(parts: seq<seq<T>>): seq<T>
  {
    if parts == [] then [] else parts[0] + Concat(parts[1..])
  }

  /** `split()` finds no word exactly when the text is all whitespace. */
  lemma {:induction false} SplitEmptyIffBlank(s: string)
    ensures Split(s) == [] <==> AllSpace(s)
    decreases |s|
  {
    if s != [] && IsSpace(s[0]) {
      SplitEmptyIffBlank(s[1..]);
      assert AllSpace(s) <==> AllSpace(s[1..]) by {
        if AllSpace(s[1..]) {
          forall i | 0 <= i < |s| ensures IsSpace(s[i]) {
            if i > 0 { assert s[i] == s[1..][i - 1]; }
          }
        }
      }
    }
  }

  /** A word followed by nothing or by whitespace splits off as one word. */
  lemma SplitWordThen(w: string, rest: string)
    requires IsWord(w)
    requires rest == [] || IsSpace(rest[0])
    ensures Split(w + rest) == [w] + Split(rest)
  {
    var s := w + rest;
    var n := WordEnd(s);
    assert forall i :: 0 <= i < |w| ==> s[i] == w[i];
    assert |w| < |s| ==> s[|w|] == rest[0];
    assert n == |w|;
    assert s[..n] == w && s[n..] == rest;
  }

  /** Leading whitespace never changes the words. */
  lemma SplitSpaceThen(sep: string, rest: string)
    requires sep != [] && AllSpace(sep)
    ensures Split(sep + rest) == Split(rest)
    decreases |sep|
  {
    assert (sep + rest)[1..] == sep[1..] + rest;
    if |sep| > 1 {
      SplitSpaceThen(sep[1..], rest);
    }
  }

  /** Round trip: the words of `" ".join(ws)` are `ws` again, whenever every
      element of `ws` is a word. */
  lemma {:induction false} SplitJoin(ws: seq<string>)
    requires forall i :: 0 <= i < |ws| ==> IsWord(ws[i])
    ensures Split(Join(" ", ws)) == ws
  {
    if |ws| == 0 {
    } else if |ws| == 1 {
      SplitWordThen(ws[0], "");
      assert ws[0] + "" == ws[0];
    } else {
      var tail := Join(" ", ws[1..]);
      assert Join(" ", ws) == ws[0] + (" " + tail);
      SplitWordThen(ws[0], " " + tail);
      SplitSpaceThen(" ", tail);
      SplitJoin(ws[1..]);
    }
  }

  /** The first word ends where the first one of the concatenation ends,
      when `b` starts with whitespace. */
  lemma WordEndAppend(a: string, b: string)
    requires b != [] && IsSpace(b[0])
    ensures WordEnd(a + b) == WordEnd(a)
  {
    assert forall i :: 0 <= i < |a| ==> (a + b)[i] == a[i];
    assert (a + b)[|a|] == b[0];
  }

  /** Splitting distributes over a concatenation whose second part starts
      with whitespace: no word straddles the boundary. */
  lemma {:induction false} SplitAppendAtSpace(a: string, b: string)
    requires b != [] && IsSpace(b[0])
    ensures Split(a + b) == Split(a) + Split(b)
    decreases |a|
  {
    if a == [] {
      assert a + b == b;
    } else if IsSpace(a[0]) {
      assert (a + b)[0] == a[0] && (a + b)[1..] == a[1..] + b;
      SplitAppendAtSpace(a[1..], b);
    } else {
      var n := WordEnd(a);
      WordEndAppend(a, b);
      assert (a + b)[0] == a[0];
      assert (a + b)[..n] == a[..n] && (a + b)[n..] == a[n..] + b;
      SplitAppendAtSpace(a[n..], b);
      assert Split(a + b) == [a[..n]] + Split(a[n..] + b);
    }
  }

  /** Joining one more part appends the separator and that part. */
  lemma {:induction false} JoinSnoc(sep: string, parts: seq<string>, last: string)
    requires parts != []
    ensures Join(sep, parts + [last]) == Join(sep, parts) + sep + last
    decreases |parts|
  {
    if |parts| > 1 {
      assert (parts + [last])[1..] == parts[1..] + [last];
      JoinSnoc(sep, parts[1..], last);
    }
  }

  /** The words of each part, part by part. */
  function WordsOf(parts: seq<string>): seq<seq<string>>
  {
    seq(|parts|, i requires 0 <= i < |parts| => Split(parts[i]))
  }

  /** The words of a whitespace join are the words of its parts, in order:
      joining with whitespace neither merges nor splits any word. */
  lemma {:induction false} SplitOfJoin(sep: string, parts: seq<string>)
    requires sep != [] && AllSpace(sep)
    ensures Split(Join(sep, parts)) == Concat(WordsOf(parts))
    decreases |parts|
  {
    if |parts| == 1 {
      assert Concat(WordsOf(parts)) == Split(parts[0]) + Concat(WordsOf(parts)[1..]);
      assert Split(parts[0]) + [] == Split(parts[0]);
    } else if |parts| > 1 {
      var tail := Join(sep, parts[1..]);
      assert Join(sep, parts) == parts[0] + (sep + tail);
      assert IsSpace(sep[0]);
      SplitAppendAtSpace(parts[0], sep + tail);
      SplitSpaceThen(sep, tail);
      SplitOfJoin(sep, parts[1..]);
      assert WordsOf(parts)[1..] == WordsOf(parts[1..]);
    }
  }

  /** Python's `str.lower()`, for the ASCII letters. */
  function Lower(s: string): (r: string)
    ensures |r| == |s|
    ensures forall i :: 0 <= i < |s| ==>
      r[i] == (if 'A' <= s[i] <= 'Z' then s[i] - 'A' + 'a' else s[i])
  {
    if s == [] then []
    else
      var c := s[0];
      [if 'A' <= c <= 'Z' then c - 'A' + 'a' else c] + Lower(s[1..])
  }

  /** The newline translation of a file read in text mode: `"\r\n"` and a lone
      `"\r"` both become `"\n"`. */
  function UniversalNewlines(s: string): string
  {
    if s == [] then []
    else if s[0] == '\r' then
      if |s| > 1 && s[1] == '\n' then "\n" + UniversalNewlines(s[2..])
      else "\n" + UniversalNewlines(s[1..])
    else [s[0]] + UniversalNewlines(s[1..])
  }

  /** A text-mode read leaves no carriage return and never lengthens the
      text. */
  lemma {:induction false} UniversalNewlinesNoCarriageReturn(s: string)
    ensures |UniversalNewlines(s)| <= |s|
    ensures forall i :: 0 <= i < |UniversalNewlines(s)| ==> UniversalNewlines(s)[i] != '\r'
  {
    if s != [] {
      var k := if s[0] == '\r' && |s| > 1 && s[1] == '\n' then 2 else 1;
      UniversalNewlinesNoCarriageReturn(s[k..]);
      var head := if s[0] == '\r' then "\n" else [s[0]];
      assert UniversalNewlines(s) == head + UniversalNewlines(s[k..]);
    }
  }

  /** The translation of the line ends themselves: `"\r\n"` and a lone
      `"\r"` both become one `"\n"`, and any other character is kept. */
  lemma UniversalNewlinesLineEnds(c: char)
    ensures UniversalNewlines("\r\n") == "\n"
    ensures UniversalNewlines("\r") == "\n"
    ensures c != '\r' ==> UniversalNewlines([c]) == [c]
  {
    assert "\r\n"[2..] == [];
    assert [c][1..] == [];
  }

  /** The translation works piece by piece: translating a concatenation
      translates each part, unless the parts split a `"\r\n"` pair. With
      `UniversalNewlinesLineEnds` this fixes the translation of every
      text. */
  lemma {:induction false} UniversalNewlinesAppend(a: string, b: string)
    requires !(a != [] && a[|a| - 1] == '\r' && b != [] && b[0] == '\n')
    ensures UniversalNewlines(a + b) == UniversalNewlines(a) + UniversalNewlines(b)
    decreases |a|
  {
    if a == [] {
      assert a + b == b;
    } else if a[0] == '\r' && |a| == 1 {
      LoneCarriageReturnThen(b);
    } else if a[0] != '\r' {
      UniversalNewlinesAppend(a[1..], b);
      PlainCharThen(a, b);
    } else if a[1] == '\n' {
      UniversalNewlinesAppend(a[2..], b);
      CrLfThen(a, b);
    } else {
      UniversalNewlinesAppend(a[1..], b);
      LoneCrThen(a, b);
    }
  }

  /** A final lone `"\r"` becomes `"\n"` and leaves what follows alone,
      when that does not start with `"\n"`. */
  lemma LoneCarriageReturnThen(b: string)
    requires !(b != [] && b[0] == '\n')
    ensures UniversalNewlines("\r" + b) == UniversalNewlines("\r") + UniversalNewlines(b)
  {
    assert ("\r" + b)[0] == '\r' && ("\r" + b)[1..] == b;
    assert "\r"[1..] == [];
  }

  /** One translation step of `UniversalNewlinesAppend`, for a first
      character other than `'\r'`. */
  lemma PlainCharThen(a: string, b: string)
    requires a != [] && a[0] != '\r'
    requires UniversalNewlines(a[1..] + b) == UniversalNewlines(a[1..]) + UniversalNewlines(b)
    ensures UniversalNewlines(a + b) == UniversalNewlines(a) + UniversalNewlines(b)
  {
    assert (a + b)[0] == a[0] && (a + b)[1..] == a[1..] + b;
  }

  /** One translation step for a leading `"\r\n"` pair. */
  lemma CrLfThen(a: string, b: string)
    requires |a| > 1 && a[0] == '\r' && a[1] == '\n'
    requires UniversalNewlines(a[2..] + b) == UniversalNewlines(a[2..]) + UniversalNewlines(b)
    ensures UniversalNewlines(a + b) == UniversalNewlines(a) + UniversalNewlines(b)
  {
    assert (a + b)[0] == '\r' && (a + b)[1] == '\n' && (a + b)[2..] == a[2..] + b;
  }

  /** One translation step for a leading `'\r'` followed by anything but
      `'\n'`. */
  lemma LoneCrThen(a: string, b: string)
    requires |a| > 1 && a[0] == '\r' && a[1] != '\n'
    requires UniversalNewlines(a[1..] + b) == UniversalNewlines(a[1..]) + UniversalNewlines(b)
    ensures UniversalNewlines(a + b) == UniversalNewlines(a) + UniversalNewlines(b)
  {
    assert (a + b)[0] == '\r' && (a + b)[1] == a[1] && (a + b)[1..] == a[1..] + b;
  }

  /** Text that has no carriage return passes through unchanged. */
  lemma {:induction false} UniversalNewlinesKeepsPlainText(s: string)
    requires forall i :: 0 <= i < |s| ==> s[i] != '\r'
    ensures UniversalNewlines(s) == s
  {
    if s != [] {
      UniversalNewlinesKeepsPlainText(s[1..]);
    }
  }
}
